=== FILE: README.md ===
# Zero-repair pipeline: a Dafny model

This project models the data-preparation core of a small Python analysis
repository. That core reads two wide spreadsheets of firm metrics, reshapes
them into long rows (Firm, Metric, Year, Value), and converts Year and
Value. It then repairs suspicious zeros. A (Firm, Metric) group whose zeros
are not all at the start or the end of its 2016..2020 values is selected.
Each zero of a selected group in the 2016..2020 window is replaced by the
mean of the nearest non-zero values before and after it in the sorted
layout of all selected rows, which may belong to a neighbouring group. A
second, small component renders a table as Markdown lines.

The model uses immutable datatypes and pure functions. The modules follow
the program's structure:

- `Results`: the `Option` and `Result` types, and the error cases the
  pipeline can raise.
- `ZeroRuns`: the classifier `zero_test`.
- `Order` and `Records`: the key order used by `sort_values`, plus sorting,
  filtering and counting of typed rows.
- `Fill`: the forward fill, the backward fill and the mean of the two.
- `Impute`: `impute_zeros`. `ImputeExamples` holds worked tables for it.
- `Reshape`: the reshaping part of `load_dataset`.
- `Load`: the concatenation, the Year and Value conversion of `load_data`,
  the counts of `report_on_dataset_join`, and `full_data_load`.
- `Text` and `Markdown`: `generate_markdown_table`.

Some behaviours of the code are easy to misread; the model follows the
code in each:

- `zero_test([0, 5, 0, 0, 6])` is false. The leading run has length 1 and
  the trailing run has length 0 (the last value is 6), so 1 + 0 differs
  from the three zeros.
- The forward and backward fills of `impute_zeros` run over the whole
  sorted table of selected rows (load_data.py:195-198), not group by group.
  A zero at the edge of one eligible group can therefore take its value from
  the neighbouring group. `ImputeExamples.ExampleFillAcrossGroups` shows
  this.
- `impute_zeros` can fail in three places after the pivot, and the model
  keeps their order. First, the window is sliced by label
  (load_data.py:184). That slice fails when no row has year 2016 or no row
  has year 2020, even if the table holds no zero; the model returns
  `MissingYear`. Second, when no row holds a zero (load_data.py:177-189),
  the filtered pivot is empty, `apply` over an empty frame yields a
  non-boolean mask, and inverting it fails; the model returns
  `NothingToImpute`. Third, a missing year among 2017..2019 is noticed only
  by the melt (load_data.py:192), again `MissingYear`.
- `load_dataset` drops only rows whose index cell is blank
  (load_data.py:28). The two header rows are kept as data rows when their
  first cell is not blank.
- `DataFrame.empty` is true for a table with no rows and also for a table
  with no columns (helper_functions.py:14). The renderer refuses both.

## Model

| member | source | states |
|---|---|---|
| ZeroRuns.ZeroCount | load_data.py:133-137 | the zero count is 0 exactly when no value is zero, and equals the length exactly when every value is zero |
| ZeroRuns.ZeroCountIsMultiplicity | load_data.py:133-137 | the zero count is the number of zeros among the values (the multiplicity of 0) |
| ZeroRuns.LeadingZeros | load_data.py:140-145 | the forward loop's count: every value before it is zero, and the value at it (if any) is not |
| ZeroRuns.TrailingZeros | load_data.py:148-153 | the backward loop's count: each of the last `n` values is zero, and the value just before them (if any) is not |
| ZeroRuns.ZeroTest | load_data.py:121-159 | the classifier returns true exactly when no zero has a non-zero value somewhere before it and somewhere after it |
| ZeroRuns.ZeroTestCharacterization | load_data.py:156-159 | "no non-zeros, or leading + trailing run = zero count" is equivalent to "no interior zero" |
| ZeroRuns.ZeroTestScan | load_data.py:133-159 | the zero count and the two loops of the source compute the classifier's answer: true iff there is no interior zero |
| ZeroRuns.InteriorZeroInMiddle | load_data.py:156-159 | for a sequence with some non-zero value, an interior zero exists iff the stretch between the two boundary runs holds a zero |
| ZeroRuns.NonZeroOfNonStructural | load_data.py:156-159 | a sequence the classifier rejects holds a non-zero value |
| ZeroRuns.NoZeroOrAllZeroIsStructural | load_data.py:137-159 | a sequence with no zero, or with only zeros, is structural |
| ZeroRuns.ExampleBoundaryRuns | load_data.py:140-159 | [0,0,5,6,0] is structural |
| ZeroRuns.ExampleInteriorZeros | load_data.py:140-159 | [5,0,6,0,7] is not structural |
| ZeroRuns.ExampleLeadingRunPlusInterior | load_data.py:140-159 | [0,5,0,0,6] is not structural: leading run 1, trailing run 0, three zeros |
| Fill.Missing | load_data.py:196 | a value becomes missing exactly when it is zero; every other value is kept |
| Fill.ForwardScan | load_data.py:197 | the left-to-right scan carries, at each position, the last present entry up to it, or the value carried in |
| Fill.ForwardFill | load_data.py:197 | `ffill`: each position holds the last present entry at or before it, missing when there is none |
| Fill.BackwardScan | load_data.py:198 | the right-to-left scan carries, at each position, the first present entry from it on, or the value carried in |
| Fill.BackwardFill | load_data.py:198 | `bfill`: each position holds the first present entry at or after it, missing when there is none |
| Fill.Mean | load_data.py:199-202 | the row mean skipping a missing fill is missing exactly when both fills are |
| Fill.LastPresentSpec | load_data.py:197 | the forward-fill value is absent iff every earlier entry is missing; when present it is the last present entry |
| Fill.FirstPresentSpec | load_data.py:198 | the backward-fill value is absent iff every later entry is missing; when present it is the first present entry |
| Fill.NewValues | load_data.py:196-202 | one entry per value; none for a non-zero value; for a zero, the mean of the previous and next non-zero values that exist |
| Fill.NewValuesAtZeros | load_data.py:196-198 | at each zero, the column-wide forward and backward fills give the nearest non-zero value before and after it |
| Fill.MidpointOfNeighbours | load_data.py:199-202 | a zero whose nearest non-zero neighbours are `a` and `b` gets (a + b) / 2 |
| Fill.OnlyBefore | load_data.py:199-202 | a zero with a non-zero value before it and only zeros after gets that value |
| Fill.OnlyAfter | load_data.py:199-202 | a zero with only zeros before it and a non-zero value after gets that value |
| Fill.NoNeighbour | load_data.py:199-202 | when every value is zero, no fill value exists |
| Fill.FilledWhenAnyNonZero | load_data.py:196-202 | a zero gets a fill value as soon as some value of the column, before or after it, is non-zero |
| Fill.ExampleInteriorZeros | load_data.py:196-202 | the fills of [5,0,6,0,7] are 5.5 and 6.5 at the two zeros |
| Order.StrLess | load_data.py:195 | defines the string order of the sort: lexicographic by character code, a proper prefix first |
| Order.StrLessTransitive | load_data.py:195 | the string order is transitive |
| Order.StrLessTotal | load_data.py:195 | any two strings are equal or ordered one way |
| Records.KeyLess | load_data.py:195 | defines the sort order: by Firm, then Metric, then Year |
| Records.UniqueKeys | load_data.py:174 | defines what the pivot needs: no two rows share (Firm, Metric, Year) |
| Records.SortByKey | load_data.py:195 | the sort returns a permutation of its input, ordered by (Firm, Metric, Year) |
| Records.CountIfPermutation | load_data.py:195-205 | a count of rows does not depend on their order |
| Impute.HasZero | load_data.py:177 | defines the groups the pivot filter keeps: some row of the group is zero |
| Impute.AnyZero | load_data.py:177-189 | defines the case that lets the mask be inverted: some row is zero, so some group survives the filter |
| Impute.Series | load_data.py:184 | defines the classifier's input: the group's window values in year order |
| Impute.Eligible | load_data.py:177-189 | defines the groups kept for imputation: a zero somewhere, and the classifier answers false |
| Impute.Selected | load_data.py:189-192 | defines the melted rows: a window year of an eligible group |
| Impute.Layout | load_data.py:189-195 | defines the melted, sorted column: the selected rows sorted by (Firm, Metric, Year) |
| Impute.FindKey | load_data.py:208 | the merge lookup finds the first row with the key, and finds none iff no row has it |
| Impute.MergeRow | load_data.py:208-211 | the merged row keeps its key, and its value changes only when the layout holds a zero with that key |
| Impute.ImputeZeros | load_data.py:161-222 | duplicate (Firm, Metric, Year) keys fail the pivot; then a missing 2016 or 2020 fails the window slice; then a table without any zero fails at the mask; then a missing 2017..2019 fails the melt; it succeeds exactly otherwise, and the output has the input's length and, row by row, its keys |
| Impute.WindowEndsPresent | load_data.py:184 | defines what the label slice of the window needs: some row has year 2016 and some row has year 2020 |
| Impute.WindowYearsPresent | load_data.py:184-192 | defines what the melt of the window needs: every year 2016..2020 occurs in some row |
| ImputeExamples.ExampleMissingWindowEnd | load_data.py:174-189 | a single row for 2017, which is not a zero, fails with a missing year rather than with nothing to impute |
| ImputeExamples.ExampleNothingToImpute | load_data.py:177-189 | a complete group [1,2,3,4,5] without zeros fails at the mask |
| Impute.LayoutRows | load_data.py:177-195 | the sorted melt of the eligible groups holds exactly the selected rows, each once, in strictly increasing key order |
| Impute.UnchangedUnlessSelectedZero | load_data.py:177-211 | a row that is not a zero of an eligible group in the window comes through identical |
| Impute.ImputedFromLayout | load_data.py:202-211 | a selected zero takes the fill computed at its place in the sorted layout; its second clause, that the zero stays 0 when no fill exists, never applies without NaN cells, because Impute.SelectedZeroIsFilled shows a fill always exists |
| Impute.ImputedMidpoint | load_data.py:195-202 | a selected zero between non-zero layout values `a` and `b`, with only zeros between, becomes (a + b) / 2 |
| Impute.ImputedOnlyBefore | load_data.py:196-202 | a selected zero with a non-zero layout value before it and only zeros after becomes that value |
| Impute.ImputedOnlyAfter | load_data.py:196-202 | a selected zero with only zeros before it and a non-zero layout value after becomes that value |
| Impute.SelectedZeroIsFilled | load_data.py:184-211 | every selected zero gets a fill value, because its group's window holds a non-zero value that is in the layout too, and the output row takes that value |
| Impute.NonZeroInLayout | load_data.py:184-192 | a table with a selected row has a non-zero value in its layout |
| Impute.ImputedRows | load_data.py:195-211 | row by row: a row that is not a selected zero is unchanged, and a selected zero takes the fill at its layout position, which exists |
| Impute.ImputedCount | load_data.py:205-220 | the reported count is the number of input rows that are zeros of eligible groups in the window |
| Impute.SeriesIsWindow | load_data.py:174-184 | for a group with a row in every window year, the classifier's input has five values, the one for year y at position y - 2016 |
| ImputeExamples.ExampleSingleGroup | load_data.py:161-222 | the group [5,0,6,0,7] becomes [5,5.5,6,6.5,7] with a count of 2 |
| ImputeExamples.ExampleFillAcrossGroups | load_data.py:195-211 | in groups A=[5,0,6,0,0] and B=[0,4,0,0,8], A's 2020 zero and B's 2016 zero both become 5, the mean of A's 6 and B's 4 |
| Reshape.Header | load_data.py:25 | header row 0 or 1 without its index cell: one cell per data column, giving the columns' Metric and Year |
| Reshape.FirmRows | load_data.py:28 | every kept row is a row of the sheet whose index cell is not blank |
| Reshape.FirmRowsComplete | load_data.py:28 | every row with a non-blank index is kept |
| Reshape.FirmRowsAppend | load_data.py:28 | the filter keeps order: the kept rows of two stacked parts are those of the first followed by those of the second |
| Reshape.FirmRowsSingle | load_data.py:28 | a single row is kept exactly when its index cell is not blank |
| Reshape.Melt | load_data.py:37-40 | one long row per (firm row, column), column after column, carrying the firm, the column's Metric and Year, and the cell |
| Reshape.LoadDataset | load_data.py:25-40 | fewer than two rows or no data column is an error; otherwise (data columns × firm rows) long rows, Metric and Year taken from rows 0 and 1 at the same column |
| Reshape.PivotUndoesMelt | load_data.py:34-40 | pivoting the melted rows back gives every firm row's data cells |
| Reshape.NoBlankFirm | load_data.py:28-40 | no long row has a blank Firm |
| Reshape.ExampleMelt | load_data.py:25-40 | a two-column sheet with firms A and B and one blank-index row melts to A, B under 2016, then A, B under 2017 |
| Load.StripYE | load_data.py:107 | removing "YE" shortens the text iff it contains "YE", and leaves it unchanged otherwise |
| Load.StripYEFirst | load_data.py:107 | occurrences go left to right without overlap: text before the first "YE" is kept whole and the rest is processed on its own |
| Load.StripYEPrefix | load_data.py:107 | a leading "YE" is removed |
| Load.ParseInt | load_data.py:107 | `int()` succeeds exactly on an optional sign followed by digits |
| Load.ParseShowInt | load_data.py:107 | `int(str(n)) == n` for every integer |
| Load.ParseYear | load_data.py:107 | a Year cell converts iff it is text that is an integer once "YE" is removed; otherwise the error is a Year-format error |
| Load.ParseYearLabel | load_data.py:107 | "YE" followed by the digits of y converts to y |
| Load.ParseValue | load_data.py:110 | a number converts to itself; a blank or textual cell is an error |
| Load.Traverse | load_data.py:107-110 | converting a column succeeds iff every cell converts, giving the cells' values in order; otherwise it gives the first failing cell's error |
| Load.Concat | load_data.py:101-104 | the concatenation has the summed length, the first sheet's rows first, then the second's |
| Load.Convertible | load_data.py:106-110 | defines a row that converts: text Firm and Metric, a Year that is an integer once "YE" is removed, and a numeric Value |
| Load.Normalise | load_data.py:106-110 | it fails exactly when some row does not convert; on success every row is the converted cell row; a bad Year anywhere is reported before any bad Value |
| Load.LoadData | load_data.py:99-110 | a reshape error of either sheet is returned; once both sheets reshape, loading succeeds exactly when every concatenated row converts, and a bad Year anywhere gives the Year-format error; on success the length is the sum of the two melted sheets, and each row converts the concatenated row at its position |
| Load.ReportOnJoin | load_data.py:54-64 | shared + first-only = distinct firms of the first sheet, shared + second-only = those of the second, and all three = distinct firms of both |
| Load.Firms | load_data.py:54-55 | the firm set holds exactly the Firm cells that occur in the melted sheet |
| Load.FullDataLoad | load_data.py:224-241 | loading errors propagate, then the imputation errors in the order the source meets them; on success the table has the loaded length and keys, rows that are not selected zeros are unchanged, and each selected zero takes the fill at its layout position |
| Markdown.MdFilename | helper_functions.py:18-19 | the result is the given name, or the given name with ".md" appended; it ends in ".md", and it is unchanged iff the given name already ends in ".md" |
| Markdown.MdFilenameTrailingDot | helper_functions.py:18-19 | only the full suffix counts: "a." becomes "a..md" |
| Markdown.IsEmpty | helper_functions.py:14 | defines `DataFrame.empty`: no columns or no rows |
| Markdown.RenderDefault | helper_functions.py:1 | without a file name, the table goes to "table.md", with the lines of the general renderer |
| Markdown.MdFilenameIdempotent | helper_functions.py:18-19 | normalising the name twice is normalising it once |
| Markdown.Render | helper_functions.py:14-32 | an empty table is an error; otherwise rows + 2 lines: the header, the separator, then one line per data row in order |
| Markdown.PipeRow | helper_functions.py:25 | defines a header or data line: the cells joined by a bar with a space on each side, between an opening and a closing bar |
| Markdown.Separator | helper_functions.py:28 | defines the separator line: one "---" per column between bars |
| Markdown.ParsePipeRow | helper_functions.py:25-32 | a row line reads back as its cells when no cell contains a bar |
| Markdown.SeparatorPieces | helper_functions.py:28 | the separator holds one "---" per column between its bars |
| Markdown.RenderReadsBack | helper_functions.py:25-32 | every header and data line of a rendered table reads back as the names or cells it came from |
| Markdown.ExampleTwoByTwo | helper_functions.py:14-32 | columns A, B with rows (1, 2) and (3, 4) render as "table.md" with the four expected lines |
| Text.Join | helper_functions.py:25 | `str.join`: no parts give the empty text and one part gives itself; longer joins are pinned by Text.JoinCons and Text.JoinSnoc, and undone by Text.SplitJoin |
| Text.JoinCons | helper_functions.py:25 | joining a part in front of a non-empty list puts the part and a separator before the join of the rest |
| Text.JoinSnoc | helper_functions.py:28 | joining a non-empty list followed by a part puts a separator and the part after the join of the list |
| Text.EndsWith | helper_functions.py:18 | defines `str.endswith`: the text is at least as long as the suffix and its last characters are the suffix |
| Text.SplitJoin | helper_functions.py:25-32 | splitting on a character undoes joining with it, when no part contains that character |

## Left out

- Reading the Excel workbook, the hard-coded file path and the sheet
  names (load_data.py:17-22, 96-100). A sheet is a parameter: a grid of
  cells in which every row has the same length.
- Every `print`, including `report_on_zero_values` (load_data.py:71-82) and
  the printed counts. `report_on_zero_values` only prints a percentage. The
  three join counts and the imputed count are returned as values.
- Writing the Markdown file and its final confirmation message
  (helper_functions.py:22, 34). The model returns the file name and the
  lines; the newline after each line is not part of the lines.
- `str(...)` of arbitrary cell objects (helper_functions.py:32). Markdown
  cells arrive as strings.
- Load.ParseValue: `astype(float)` also accepts numeric text, and turns a
  blank cell into NaN rather than failing. The model has no floating point
  and no NaN: a value is a `real`, a blank value cell is a `MissingValue`
  error, and a textual one is a `NonNumericValue` error.
- Load.ParseInt: Python's `int()` also accepts surrounding whitespace,
  underscores between digits and non-ASCII decimal digits, and pandas'
  `astype(int)` is limited to 64 bits. The model accepts only an optional sign followed by digits, and its
  integers are unbounded.
- Load.Normalise: the source keeps Firm and Metric cells of any type. The
  model requires them to be text and otherwise returns `UnsupportedLabel`,
  after the Year and Value checks.
- Impute.ImputeZeros: groups with a gap in the window (a missing year for
  one firm while the year exists elsewhere) give NaN cells in the pivot.
  The model does not represent those NaN cells. For such a group the
  classifier's input is the group's present window values in year order.
  `Impute.SeriesIsWindow` states the match with the pivot row for groups
  that are complete.
- Impute.ImputeZeros: floating-point means are modelled as exact `real`
  arithmetic.
- Impute.SelectedZeroIsFilled: in the source a selected zero keeps 0 when
  no non-missing value is left in the column around it, which only NaN
  cells can cause; without NaN the model has no such case.
- The row order that `pivot` and `melt` produce inside `impute_zeros` is
  not modelled. The sort by (Firm, Metric, Year) that follows fixes the
  order, because keys are unique.

=== FILE: fill.dfy ===
/** The fill passes of `impute_zeros` (load_data.py), over the Value column
    of the sorted table: zeros become missing, a forward fill carries the
    last present value down, a backward fill carries the next present value
    up, and each original zero gets the mean of whichever of the two exist.

    Both fills are linear scans; each is checked against an independent
    description of "the nearest present entry" read off the sequence. */
module Fill {
  import opened Results

  /** `values.replace(0, np.nan)`: zeros become missing, the rest stay. */
  function Missing(vals: seq<real>): (m: seq<Option<real>>)
    ensures |m| == |vals|
    ensures forall i :: 0 <= i < |vals| ==> (m[i] == None <==> vals[i] == 0.0)
    ensures forall i :: 0 <= i < |vals| && m[i].Some? ==> m[i].value == vals[i]
  {
    seq(|vals|, i requires 0 <= i < |vals| => if vals[i] == 0.0 then None else Some(vals[i]))
  }

  /** The first of two optional values that is present. */
  function Or(a: Option<real>, b: Option<real>): Option<real> {
    if a.Some? then a else b
  }

  /** The last present entry of `m`, or None when every entry is missing. */
  function LastPresent(m: seq<Option<real>>): Option<real> {
    if |m| == 0 then None
    else if m[|m| - 1].Some? then m[|m| - 1]
    else LastPresent(m[..|m| - 1])
  }

  /** The first present entry of `m`, or None when every entry is missing. */
  function FirstPresent(m: seq<Option<real>>): Option<real> {
    if |m| == 0 then None
    else if m[0].Some? then m[0]
    else FirstPresent(m[1..])
  }

  /** LastPresent finds the present entry after which every entry is missing. */
  lemma {:induction false} LastPresentSpec(m: seq<Option<real>>)
    ensures LastPresent(m) == None <==> forall k :: 0 <= k < |m| ==> m[k] == None
    ensures LastPresent(m).Some? ==>
              exists j :: 0 <= j < |m| && m[j] == LastPresent(m) && forall k :: j < k < |m| ==> m[k] == None
  {
    if |m| > 0 && m[|m| - 1] == None {
      var init := m[..|m| - 1];
      LastPresentSpec(init);
      assert forall k :: 0 <= k < |init| ==> init[k] == m[k];
    }
  }

  /** FirstPresent finds the present entry before which every entry is missing. */
  lemma {:induction false} FirstPresentSpec(m: seq<Option<real>>)
    ensures FirstPresent(m) == None <==> forall k :: 0 <= k < |m| ==> m[k] == None
    ensures FirstPresent(m).Some? ==>
              exists j :: 0 <= j < |m| && m[j] == FirstPresent(m) && forall k :: 0 <= k < j ==> m[k] == None
  {
    if |m| > 0 && m[0] == None {
      var rest := m[1..];
      FirstPresentSpec(rest);
      assert forall k :: 0 <= k < |rest| ==> rest[k] == m[k + 1];
      if FirstPresent(rest).Some? {
        var j :| 0 <= j < |rest| && rest[j] == FirstPresent(rest) && forall k :: 0 <= k < j ==> rest[k] == None;
        assert m[j + 1] == FirstPresent(m);
        forall k | 0 <= k < j + 1
          ensures m[k] == None
        {
          if k > 0 {
            assert m[k] == rest[k - 1];
          }
        }
      } else {
        forall k | 0 <= k < |m|
          ensures m[k] == None
        {
          if k > 0 {
            assert m[k] == rest[k - 1];
          }
        }
      }
    }
  }

  lemma {:induction false} LastPresentAppend(a: seq<Option<real>>, b: seq<Option<real>>)
    ensures LastPresent(a + b) == Or(LastPresent(b), LastPresent(a))
    decreases |b|
  {
    if |b| == 0 {
      assert a + b == a;
    } else {
      assert (a + b)[..|a + b| - 1] == a + b[..|b| - 1];
      LastPresentAppend(a, b[..|b| - 1]);
    }
  }

  lemma {:induction false} FirstPresentAppend(a: seq<Option<real>>, b: seq<Option<real>>)
    ensures FirstPresent(a + b) == Or(FirstPresent(a), FirstPresent(b))
    decreases |a|
  {
    if |a| == 0 {
      assert a + b == b;
    } else {
      assert (a + b)[1..] == a[1..] + b;
      FirstPresentAppend(a[1..], b);
    }
  }

  /** `ffill` as a left-to-right scan that carries the last present value;
      `carry` is what was carried in from before the start. */
  function ForwardScan(m: seq<Option<real>>, carry: Option<real>): (r: seq<Option<real>>)
    ensures |r| == |m|
    ensures forall i :: 0 <= i < |m| ==> r[i] == Or(LastPresent(m[..i + 1]), carry)
  {
    if |m| == 0 then []
    else
      var c := Or(m[0], carry);
      var rest := ForwardScan(m[1..], c);
      ForwardScanStep(m, carry, rest);
      [c] + rest
  }

  lemma {:induction false} ForwardScanStep(m: seq<Option<real>>, carry: Option<real>, rest: seq<Option<real>>)
    requires |m| > 0
    requires |rest| == |m| - 1
    requires forall i :: 0 <= i < |m| - 1 ==> rest[i] == Or(LastPresent(m[1..][..i + 1]), Or(m[0], carry))
    ensures forall i :: 0 <= i < |m| ==> ([Or(m[0], carry)] + rest)[i] == Or(LastPresent(m[..i + 1]), carry)
  {
    var c := Or(m[0], carry);
    assert m[..1] == [] + [m[0]];
    assert LastPresent(m[..1]) == Or(m[0], None);
    forall i | 0 <= i < |m|
      ensures ([c] + rest)[i] == Or(LastPresent(m[..i + 1]), carry)
    {
      if i > 0 {
        assert m[..i + 1] == m[..1] + m[1..][..i];
        LastPresentAppend(m[..1], m[1..][..i]);
      }
    }
  }

  /** `bfill` as a right-to-left scan that carries the next present value;
      `carry` is what was carried in from past the end. */
  function BackwardScan(m: seq<Option<real>>, carry: Option<real>): (r: seq<Option<real>>)
    ensures |r| == |m|
    ensures forall i :: 0 <= i < |m| ==> r[i] == Or(FirstPresent(m[i..]), carry)
  {
    if |m| == 0 then []
    else
      var c := Or(m[|m| - 1], carry);
      var rest := BackwardScan(m[..|m| - 1], c);
      BackwardScanStep(m, carry, rest);
      rest + [c]
  }

  lemma {:induction false} BackwardScanStep(m: seq<Option<real>>, carry: Option<real>, rest: seq<Option<real>>)
    requires |m| > 0
    requires |rest| == |m| - 1
    requires forall i :: 0 <= i < |m| - 1 ==> rest[i] == Or(FirstPresent(m[..|m| - 1][i..]), Or(m[|m| - 1], carry))
    ensures forall i :: 0 <= i < |m| ==> (rest + [Or(m[|m| - 1], carry)])[i] == Or(FirstPresent(m[i..]), carry)
  {
    var n := |m| - 1;
    var c := Or(m[n], carry);
    assert m[n..] == [m[n]];
    assert m[n..][1..] == [];
    assert FirstPresent(m[n..]) == Or(m[n], None);
    forall i | 0 <= i < |m|
      ensures (rest + [c])[i] == Or(FirstPresent(m[i..]), carry)
    {
      if i < n {
        assert m[i..] == m[..n][i..] + m[n..];
        FirstPresentAppend(m[..n][i..], m[n..]);
      }
    }
  }

  function ForwardFill(m: seq<Option<real>>): (r: seq<Option<real>>)
    ensures |r| == |m|
    ensures forall i :: 0 <= i < |m| ==> r[i] == LastPresent(m[..i + 1])
  {
    ForwardScan(m, None)
  }

  function BackwardFill(m: seq<Option<real>>): (r: seq<Option<real>>)
    ensures |r| == |m|
    ensures forall i :: 0 <= i < |m| ==> r[i] == FirstPresent(m[i..])
  {
    BackwardScan(m, None)
  }

  /** The row-wise mean of the two fills, skipping a missing one; missing
      when both are. */
  function Mean(before: Option<real>, after: Option<real>): (r: Option<real>)
    ensures r == None <==> before == None && after == None
  {
    if before.Some? && after.Some? then Some((before.value + after.value) / 2.0)
    else if before.Some? then before
    else after
  }

  /** The "New Value" column restricted to the rows kept afterwards (those
      whose Value was 0): for each position, the value that will be written
      back, or None when nothing is (a non-zero, or a zero with no present
      value on either side). */
  function NewValues(vals: seq<real>): (nv: seq<Option<real>>)
    ensures |nv| == |vals|
    ensures forall i {:trigger nv[i]} :: 0 <= i < |vals| && vals[i] != 0.0 ==> nv[i] == None
    ensures forall i {:trigger nv[i]} :: 0 <= i < |vals| && vals[i] == 0.0 ==>
              nv[i] == Mean(LastPresent(Missing(vals)[..i]), FirstPresent(Missing(vals)[i + 1..]))
  {
    var m := Missing(vals);
    var prev := ForwardFill(m);
    var next := BackwardFill(m);
    NewValuesAtZeros(vals, prev, next);
    seq(|vals|, i requires 0 <= i < |vals| => if vals[i] == 0.0 then Mean(prev[i], next[i]) else None)
  }

  /** At a missing position the fills skip the position itself. */
  lemma {:induction false} NewValuesAtZeros(vals: seq<real>, prev: seq<Option<real>>, next: seq<Option<real>>)
    requires prev == ForwardFill(Missing(vals)) && next == BackwardFill(Missing(vals))
    ensures forall i :: 0 <= i < |vals| && vals[i] == 0.0 ==>
              prev[i] == LastPresent(Missing(vals)[..i]) && next[i] == FirstPresent(Missing(vals)[i + 1..])
  {
    var m := Missing(vals);
    forall i | 0 <= i < |vals| && vals[i] == 0.0
      ensures prev[i] == LastPresent(m[..i]) && next[i] == FirstPresent(m[i + 1..])
    {
      assert m[..i + 1][..i] == m[..i];
      assert m[i..][1..] == m[i + 1..];
    }
  }

  /** The value written back at a zero, in terms of the zeros-as-missing
      column split around it. */
  lemma {:induction false} NewValueAt(vals: seq<real>, p: int)
    requires 0 <= p < |vals| && vals[p] == 0.0
    ensures NewValues(vals)[p] == Mean(LastPresent(Missing(vals)[..p]), FirstPresent(Missing(vals)[p + 1..]))
  {
  }

  /** Between two present entries with only missing ones around `p`, the
      two fills at `p` find exactly those two. */
  lemma {:induction false} FillsBetween(m: seq<Option<real>>, i: int, p: int, k: int)
    requires 0 <= i < p < k < |m|
    requires m[i].Some? && m[k].Some?
    requires forall j :: i < j < k && j != p ==> m[j] == None
    ensures LastPresent(m[..p]) == m[i]
    ensures FirstPresent(m[p + 1..]) == m[k]
  {
    var head, tail := m[..p], m[p + 1..];
    assert forall j :: i < j < |head| ==> head[j] == m[j];
    LastPresentIs(head, i);
    forall j | 0 <= j < k - p - 1
      ensures tail[j] == None
    {
      assert tail[j] == m[p + 1 + j];
    }
    assert tail[k - p - 1] == m[k];
    FirstPresentIs(tail, k - p - 1);
  }

  /** With no present entry after `p`, the backward fill at `p` finds none. */
  lemma {:induction false} NothingAfter(m: seq<Option<real>>, p: int)
    requires 0 <= p < |m|
    requires forall j :: p < j < |m| ==> m[j] == None
    ensures FirstPresent(m[p + 1..]) == None
  {
    var tail := m[p + 1..];
    FirstPresentSpec(tail);
    forall j | 0 <= j < |tail|
      ensures tail[j] == None
    {
      assert tail[j] == m[p + 1 + j];
    }
  }

  /** With no present entry before `p`, the forward fill at `p` finds none. */
  lemma {:induction false} NothingBefore(m: seq<Option<real>>, p: int)
    requires 0 <= p <= |m|
    requires forall j :: 0 <= j < p ==> m[j] == None
    ensures LastPresent(m[..p]) == None
  {
    var head := m[..p];
    LastPresentSpec(head);
    assert forall j :: 0 <= j < |head| ==> head[j] == m[j];
  }

  /** A zero whose nearest non-zero values before and after it are `a` and
      `b` becomes their midpoint. */
  lemma {:induction false} MidpointOfNeighbours(vals: seq<real>, i: int, p: int, k: int)
    requires 0 <= i < p < k < |vals|
    requires vals[p] == 0.0 && vals[i] != 0.0 && vals[k] != 0.0
    requires forall j :: i < j < k && j != p ==> vals[j] == 0.0
    ensures NewValues(vals)[p] == Some((vals[i] + vals[k]) / 2.0)
  {
    FillsAround(vals, i, p, k);
    NewValueOfBoth(vals, p, vals[i], vals[k]);
    MeanOfBoth(vals[i], vals[k]);
  }

  /** The two fills at `p` find the non-zero values at `i` and `k`. */
  lemma {:induction false} FillsAround(vals: seq<real>, i: int, p: int, k: int)
    requires 0 <= i < p < k < |vals|
    requires vals[i] != 0.0 && vals[k] != 0.0
    requires forall j :: i < j < k && j != p ==> vals[j] == 0.0
    ensures LastPresent(Missing(vals)[..p]) == Some(vals[i])
    ensures FirstPresent(Missing(vals)[p + 1..]) == Some(vals[k])
  {
    var m := Missing(vals);
    forall j | i < j < k && j != p
      ensures m[j] == None
    {
      assert vals[j] == 0.0;
    }
    FillsBetween(m, i, p, k);
  }

  /** A zero with a present value found on each side becomes their mean. */
  lemma {:induction false} NewValueOfBoth(vals: seq<real>, p: int, before: real, after: real)
    requires 0 <= p < |vals| && vals[p] == 0.0
    requires LastPresent(Missing(vals)[..p]) == Some(before)
    requires FirstPresent(Missing(vals)[p + 1..]) == Some(after)
    ensures NewValues(vals)[p] == Mean(Some(before), Some(after))
  {
    NewValueAt(vals, p);
  }

  /** Two present neighbours give their midpoint. */
  lemma {:induction false} MeanOfBoth(a: real, b: real)
    ensures Mean(Some(a), Some(b)) == Some((a + b) / 2.0)
  {
  }

  /** A zero whose only non-zero values lie before it becomes the nearest of
      them. */
  lemma {:induction false} OnlyBefore(vals: seq<real>, i: int, p: int)
    requires 0 <= i < p < |vals|
    requires vals[p] == 0.0 && vals[i] != 0.0
    requires forall j :: i < j < |vals| ==> vals[j] == 0.0
    ensures NewValues(vals)[p] == Some(vals[i])
  {
    var m := Missing(vals);
    assert LastPresent(m[..p]) == Some(vals[i]) && FirstPresent(m[p + 1..]) == None by {
      var head := m[..p];
      forall j | i < j < p
        ensures head[j] == None
      {
        assert head[j] == m[j];
      }
      LastPresentIs(head, i);
      NothingAfter(m, p);
    }
    NewValueAt(vals, p);
  }

  /** A zero whose only non-zero values lie after it becomes the nearest of
      them. */
  lemma {:induction false} OnlyAfter(vals: seq<real>, p: int, k: int)
    requires 0 <= p < k < |vals|
    requires vals[p] == 0.0 && vals[k] != 0.0
    requires forall j :: 0 <= j < k ==> vals[j] == 0.0
    ensures NewValues(vals)[p] == Some(vals[k])
  {
    var m := Missing(vals);
    assert LastPresent(m[..p]) == None && FirstPresent(m[p + 1..]) == Some(vals[k]) by {
      forall j | 0 <= j < k
        ensures m[j] == None
      {
        assert vals[j] == 0.0;
      }
      NothingBefore(m, p);
      var tail := m[p + 1..];
      forall j | 0 <= j < k - p - 1
        ensures tail[j] == None
      {
        assert tail[j] == m[p + 1 + j];
      }
      FirstPresentIs(tail, k - p - 1);
    }
    NewValueAt(vals, p);
  }

  /** A zero in a column with no non-zero at all gets nothing written. */
  lemma {:induction false} NoNeighbour(vals: seq<real>, p: int)
    requires 0 <= p < |vals|
    requires forall j :: 0 <= j < |vals| ==> vals[j] == 0.0
    ensures NewValues(vals)[p] == None
  {
    var m := Missing(vals);
    assert LastPresent(m[..p]) == None && FirstPresent(m[p + 1..]) == None by {
      forall j | 0 <= j < |m|
        ensures m[j] == None
      {
        assert vals[j] == 0.0;
      }
      NothingBefore(m, p);
      NothingAfter(m, p);
    }
    NewValueAt(vals, p);
  }

  /** A zero is filled as soon as the column holds a non-zero value
      anywhere, before it or after it. */
  lemma {:induction false} FilledWhenAnyNonZero(vals: seq<real>, p: int, k: int)
    requires 0 <= p < |vals| && 0 <= k < |vals|
    requires vals[p] == 0.0 && vals[k] != 0.0
    ensures NewValues(vals)[p].Some?
  {
    NewValueAt(vals, p);
    var m := Missing(vals);
    if k < p {
      var head := m[..p];
      LastPresentSpec(head);
      assert head[k] == m[k] && m[k] != None;
    } else {
      var tail := m[p + 1..];
      FirstPresentSpec(tail);
      assert tail[k - p - 1] == m[k] && m[k] != None;
    }
  }

  lemma {:induction false} LastPresentIs(m: seq<Option<real>>, j: int)
    requires 0 <= j < |m| && m[j].Some?
    requires forall k :: j < k < |m| ==> m[k] == None
    ensures LastPresent(m) == m[j]
  {
    LastPresentSpec(m);
    var o := LastPresent(m);
    var j' :| 0 <= j' < |m| && m[j'] == o && forall k :: j' < k < |m| ==> m[k] == None;
    assert j' == j;
  }

  lemma {:induction false} FirstPresentIs(m: seq<Option<real>>, j: int)
    requires 0 <= j < |m| && m[j].Some?
    requires forall k :: 0 <= k < j ==> m[k] == None
    ensures FirstPresent(m) == m[j]
  {
    FirstPresentSpec(m);
    var o := FirstPresent(m);
    var j' :| 0 <= j' < |m| && m[j'] == o && forall k :: 0 <= k < j' ==> m[k] == None;
    assert j' == j;
  }

  /** [5, 0, 6, 0, 7]: the zeros become 5.5 and 6.5. */
  lemma {:induction false} ExampleInteriorZeros()
    ensures NewValues([5.0, 0.0, 6.0, 0.0, 7.0]) == [None, Some(5.5), None, Some(6.5), None]
  {
    var vals := [5.0, 0.0, 6.0, 0.0, 7.0];
    MidpointOfNeighbours(vals, 0, 1, 2);
    MidpointOfNeighbours(vals, 2, 3, 4);
  }
}

=== FILE: impute.dfy ===
/** `impute_zeros` (load_data.py): pivot the long table, pick the
    (Firm, Metric) groups that hold a zero and whose 2016..2020 values are
    not structural, melt those back for the window years, sort, fill the
    zeros from the nearest non-zero values of the sorted column, and write
    the fills back into the original table by (Firm, Metric, Year).

    The fills run over the whole sorted column of selected rows, so a
    zero at the edge of one group can take its value from the neighbouring
    group; the model keeps that behaviour. */
module Impute {
  import opened Results
  import opened Order
  import opened Records
  import opened ZeroRuns
  import opened Fill

  /** The window passed to `zero_test` and to the melt. */
  const FirstYear := 2016
  const LastYear := 2020

  predicate InWindow(year: int) {
    FirstYear <= year <= LastYear
  }

  /** Some row of the table is for `year`, so `year` is a pivot column. */
  predicate YearPresent(rows: seq<Row>, year: int) {
    exists r :: r in rows && r.year == year
  }

  /** Every window year is a pivot column; otherwise the melt names a column
      that does not exist. */
  predicate WindowYearsPresent(rows: seq<Row>) {
    forall y :: FirstYear <= y <= LastYear ==> YearPresent(rows, y)
  }

  /** The two ends of the window are columns of the pivot. The label slice
      of the window needs both ends to exist among the columns even when
      the filtered pivot holds no group, and fails before the mask when
      either is missing. */
  predicate WindowEndsPresent(rows: seq<Row>) {
    YearPresent(rows, FirstYear) && YearPresent(rows, LastYear)
  }

  /** Group `g` has a zero in some year: `(pivot == 0).sum(axis=1) > 0`. */
  predicate HasZero(rows: seq<Row>, g: GroupId) {
    exists r :: r in rows && GroupOf(r) == g && r.value == 0.0
  }

  /** The window values of group `g` in year order: the pivot row sliced to
      2016..2020 and handed to `zero_test`. */
  function Series(rows: seq<Row>, g: GroupId): seq<real> {
    Values(GroupWindow(rows, g))
  }

  /** The groups that are imputed: a zero somewhere, and not structural. */
  predicate Eligible(rows: seq<Row>, g: GroupId) {
    HasZero(rows, g) && !ZeroTest(Series(rows, g))
  }

  /** The rows that the melt of the eligible groups produces. */
  predicate Selected(rows: seq<Row>, r: Row) {
    InWindow(r.year) && Eligible(rows, GroupOf(r))
  }

  /** The melted table of eligible groups, sorted by (Firm, Metric, Year). */
  function Layout(rows: seq<Row>): seq<Row> {
    Filter(SortByKey(rows), r => Selected(rows, r))
  }

  /** Position of the first row of `s` with key `k`, if any. */
  function FindKey(s: seq<Row>, k: Key): (r: Option<nat>)
    ensures r.Some? ==> r.value < |s| && KeyOf(s[r.value]) == k
    ensures r.Some? ==> forall j :: 0 <= j < r.value ==> KeyOf(s[j]) != k
    ensures r == None <==> forall j :: 0 <= j < |s| ==> KeyOf(s[j]) != k
  {
    if |s| == 0 then None
    else if KeyOf(s[0]) == k then Some(0)
    else
      match FindKey(s[1..], k)
      case None => (assert forall j :: 1 <= j < |s| ==> s[j] == s[1..][j - 1]; None)
      case Some(j) => (assert forall i :: 1 <= i < j + 1 ==> s[i] == s[1..][i - 1]; Some(j + 1))
  }

  /** The left merge on (Firm, Metric, Year) followed by
      `New Value.combine_first(Value)`: a row takes the fill computed for the
      matching zero of the layout when there is one, and keeps its value
      otherwise. */
  function MergeRow(layout: seq<Row>, nv: seq<Option<real>>, x: Row): (y: Row)
    requires |nv| == |layout|
    ensures KeyOf(y) == KeyOf(x)
    ensures y.value != x.value ==> exists j :: 0 <= j < |layout| && KeyOf(layout[j]) == KeyOf(x) && layout[j].value == 0.0
  {
    match FindKey(layout, KeyOf(x))
    case None => x
    case Some(j) =>
      if layout[j].value == 0.0 && nv[j].Some? then x.(value := nv[j].value) else x
  }

  /** The table after imputation, and the number of values reported as
      imputed (the zero rows of the layout, whether or not a fill was found). */
  datatype Imputation = Imputation(table: seq<Row>, imputed: nat)

  /** Some row holds a zero, so some group survives the filter on the
      pivot. When none does, the mask computed over the empty pivot is not
      boolean and inverting it fails. */
  predicate AnyZero(rows: seq<Row>) {
    exists r :: r in rows && r.value == 0.0
  }

  /** The errors in the order the source meets them: the pivot, the label
      slice of the window ends, the mask over the filtered pivot, then the
      melt of the inner window years. */
  function ImputeZeros(rows: seq<Row>): (r: Result<Imputation>)
    ensures !UniqueKeys(rows) ==> r == Err(DuplicateKey)
    ensures UniqueKeys(rows) && !WindowEndsPresent(rows) ==> r == Err(MissingYear)
    ensures UniqueKeys(rows) && WindowEndsPresent(rows) && !AnyZero(rows) ==> r == Err(NothingToImpute)
    ensures UniqueKeys(rows) && AnyZero(rows) && !WindowYearsPresent(rows) ==> r == Err(MissingYear)
    ensures UniqueKeys(rows) && AnyZero(rows) && WindowYearsPresent(rows) ==> r.Ok?
    ensures r.Ok? ==> |r.value.table| == |rows|
    ensures r.Ok? ==> forall i :: 0 <= i < |rows| ==> KeyOf(r.value.table[i]) == KeyOf(rows[i])
  {
    if !UniqueKeys(rows) then Err(DuplicateKey)
    else if !WindowEndsPresent(rows) then Err(MissingYear)
    else if !AnyZero(rows) then Err(NothingToImpute)
    else if !WindowYearsPresent(rows) then Err(MissingYear)
    else
      var layout := Layout(rows);
      var nv := NewValues(Values(layout));
      var table := seq(|rows|, i requires 0 <= i < |rows| => MergeRow(layout, nv, rows[i]));
      Ok(Imputation(table, CountIf(layout, (r: Row) => r.value == 0.0)))
  }

  /** The layout holds exactly the selected rows of the table, each once, in
      strictly increasing key order. */
  lemma {:induction false} LayoutRows(rows: seq<Row>)
    requires UniqueKeys(rows)
    ensures forall x :: x in Layout(rows) <==> x in rows && Selected(rows, x)
    ensures UniqueKeys(Layout(rows)) && SortedByKey(Layout(rows))
    ensures forall i, j :: 0 <= i < j < |Layout(rows)| ==> KeyLess(KeyOf(Layout(rows)[i]), KeyOf(Layout(rows)[j]))
  {
    var sorted := SortByKey(rows);
    var layout := Layout(rows);
    assert forall x :: x in sorted <==> x in rows by {
      forall x
        ensures x in sorted <==> x in rows
      {
        assert x in sorted <==> x in multiset(sorted);
        assert x in rows <==> x in multiset(rows);
      }
    }
    UniqueKeysSubset(rows, sorted);
    UniqueKeysSubset(sorted, layout);
    forall i, j | 0 <= i < j < |layout|
      ensures KeyLess(KeyOf(layout[i]), KeyOf(layout[j]))
    {
      SortedUniqueIsStrict(layout, i, j);
    }
  }

  /** A row of the table that is not a selected zero comes through unchanged. */
  lemma {:induction false} UnchangedUnlessSelectedZero(rows: seq<Row>, i: int)
    requires ImputeZeros(rows).Ok? && 0 <= i < |rows|
    requires !(rows[i].value == 0.0 && Selected(rows, rows[i]))
    ensures ImputeZeros(rows).value.table[i] == rows[i]
  {
    var layout := Layout(rows);
    var nv := NewValues(Values(layout));
    var y := MergeRow(layout, nv, rows[i]);
    assert ImputeZeros(rows).value.table[i] == y;
    LayoutRows(rows);
    forall j | 0 <= j < |layout| && KeyOf(layout[j]) == KeyOf(rows[i])
      ensures layout[j] == rows[i]
    {
      assert layout[j] in layout;
      SameKeySameRow(rows, layout[j], rows[i]);
    }
  }

  /** A selected zero sitting at position `j` of the layout takes the fill
      computed there, or stays 0 when there is none. */
  lemma {:induction false} ImputedFromLayout(rows: seq<Row>, i: int, j: int)
    requires ImputeZeros(rows).Ok? && 0 <= i < |rows|
    requires 0 <= j < |Layout(rows)| && Layout(rows)[j] == rows[i]
    requires rows[i].value == 0.0
    ensures NewValues(Values(Layout(rows)))[j].Some? ==>
              ImputeZeros(rows).value.table[i].value == NewValues(Values(Layout(rows)))[j].value
    ensures NewValues(Values(Layout(rows)))[j] == None ==> ImputeZeros(rows).value.table[i].value == 0.0
  {
    var layout := Layout(rows);
    LayoutRows(rows);
    var found := FindKey(layout, KeyOf(rows[i]));
    assert found == Some(j) by {
      assert found.Some?;
      assert KeyOf(layout[found.value]) == KeyOf(layout[j]);
    }
    assert ImputeZeros(rows).value.table[i] == MergeRow(layout, NewValues(Values(layout)), rows[i]);
  }

  /** A selected zero whose nearest non-zero values in the sorted layout are
      at positions `a` (before it) and `b` (after it) becomes their mean. */
  lemma {:induction false} ImputedMidpoint(rows: seq<Row>, i: int, a: int, j: int, b: int)
    requires ImputeZeros(rows).Ok? && 0 <= i < |rows| && rows[i].value == 0.0
    requires 0 <= a < j < b < |Layout(rows)| && Layout(rows)[j] == rows[i]
    requires Layout(rows)[a].value != 0.0 && Layout(rows)[b].value != 0.0
    requires forall k :: a < k < b && k != j ==> Layout(rows)[k].value == 0.0
    ensures ImputeZeros(rows).value.table[i].value == (Layout(rows)[a].value + Layout(rows)[b].value) / 2.0
  {
    var vals := Values(Layout(rows));
    forall k | a < k < b && k != j
      ensures vals[k] == 0.0
    {
      assert vals[k] == Layout(rows)[k].value;
    }
    MidpointOfNeighbours(vals, a, j, b);
    ImputedFromLayout(rows, i, j);
  }

  /** A selected zero with a non-zero value before it in the layout, at
      position `a`, and only zeros after that, takes that value. */
  lemma {:induction false} ImputedOnlyBefore(rows: seq<Row>, i: int, a: int, j: int)
    requires ImputeZeros(rows).Ok? && 0 <= i < |rows| && rows[i].value == 0.0
    requires 0 <= a < j < |Layout(rows)| && Layout(rows)[j] == rows[i]
    requires Layout(rows)[a].value != 0.0
    requires forall k :: a < k < |Layout(rows)| ==> Layout(rows)[k].value == 0.0
    ensures ImputeZeros(rows).value.table[i].value == Layout(rows)[a].value
  {
    var vals := Values(Layout(rows));
    forall k | a < k < |vals|
      ensures vals[k] == 0.0
    {
      assert vals[k] == Layout(rows)[k].value;
    }
    OnlyBefore(vals, a, j);
    ImputedFromLayout(rows, i, j);
  }

  /** A selected zero with only zeros before it in the layout and a non-zero
      value at position `b` after it takes that value. */
  lemma {:induction false} ImputedOnlyAfter(rows: seq<Row>, i: int, j: int, b: int)
    requires ImputeZeros(rows).Ok? && 0 <= i < |rows| && rows[i].value == 0.0
    requires 0 <= j < b < |Layout(rows)| && Layout(rows)[j] == rows[i]
    requires Layout(rows)[b].value != 0.0
    requires forall k :: 0 <= k < b ==> Layout(rows)[k].value == 0.0
    ensures ImputeZeros(rows).value.table[i].value == Layout(rows)[b].value
  {
    var vals := Values(Layout(rows));
    forall k | 0 <= k < b
      ensures vals[k] == 0.0
    {
      assert vals[k] == Layout(rows)[k].value;
    }
    OnlyAfter(vals, j, b);
    ImputedFromLayout(rows, i, j);
  }

  /** Every selected zero is filled: its group has an interior zero, so it
      has a non-zero window value, and that value is in the layout too. A
      selected zero that keeps 0 needs a column without any non-zero value,
      which only missing (NaN) cells could give. */
  lemma {:induction false} SelectedZeroIsFilled(rows: seq<Row>, i: int, j: int)
    requires ImputeZeros(rows).Ok? && 0 <= i < |rows| && rows[i].value == 0.0
    requires 0 <= j < |Layout(rows)| && Layout(rows)[j] == rows[i]
    ensures NewValues(Values(Layout(rows)))[j].Some?
    ensures ImputeZeros(rows).value.table[i].value == NewValues(Values(Layout(rows)))[j].value
  {
    var layout := Layout(rows);
    LayoutRows(rows);
    assert layout[j] in layout;
    var k := NonZeroInLayout(rows, rows[i]);
    var vals := Values(layout);
    assert vals[k] != 0.0 && vals[j] == 0.0;
    FilledWhenAnyNonZero(vals, j, k);
    ImputedFromLayout(rows, i, j);
  }

  /** The layout of a table with a selected row holds a non-zero value: one
      from the window of that row's group. */
  lemma {:induction false} NonZeroInLayout(rows: seq<Row>, r: Row) returns (k: int)
    requires UniqueKeys(rows) && r in rows && Selected(rows, r)
    ensures 0 <= k < |Layout(rows)| && Layout(rows)[k].value != 0.0
  {
    var g := GroupOf(r);
    var a := NonZeroOfNonStructural(Series(rows, g));
    var x := GroupWindowAt(rows, g, a);
    assert Selected(rows, x);
    k := LayoutPosition(rows, x);
  }

  /** The row behind position `a` of a group's window values. */
  lemma {:induction false} GroupWindowAt(rows: seq<Row>, g: GroupId, a: int) returns (x: Row)
    requires UniqueKeys(rows) && 0 <= a < |Series(rows, g)|
    ensures x in rows && GroupOf(x) == g && InWindow(x.year) && x.value == Series(rows, g)[a]
  {
    var t := GroupWindow(rows, g);
    GroupWindowRows(rows, g);
    x := t[a];
    assert x in t;
  }

  /** Row by row: a row that is not a selected zero comes through as it
      is, and a selected zero takes the fill computed at its position in
      the layout, which always exists. */
  lemma {:induction false} ImputedRows(rows: seq<Row>)
    requires ImputeZeros(rows).Ok?
    ensures forall i :: 0 <= i < |rows| && !(rows[i].value == 0.0 && Selected(rows, rows[i])) ==>
              ImputeZeros(rows).value.table[i] == rows[i]
    ensures forall i :: 0 <= i < |rows| && rows[i].value == 0.0 && Selected(rows, rows[i]) ==>
              exists j :: 0 <= j < |Layout(rows)| && Layout(rows)[j] == rows[i] &&
                NewValues(Values(Layout(rows)))[j].Some? &&
                ImputeZeros(rows).value.table[i].value == NewValues(Values(Layout(rows)))[j].value
  {
    forall i | 0 <= i < |rows| && !(rows[i].value == 0.0 && Selected(rows, rows[i]))
      ensures ImputeZeros(rows).value.table[i] == rows[i]
    {
      UnchangedUnlessSelectedZero(rows, i);
    }
    forall i | 0 <= i < |rows| && rows[i].value == 0.0 && Selected(rows, rows[i])
      ensures exists j :: 0 <= j < |Layout(rows)| && Layout(rows)[j] == rows[i] &&
                NewValues(Values(Layout(rows)))[j].Some? &&
                ImputeZeros(rows).value.table[i].value == NewValues(Values(Layout(rows)))[j].value
    {
      var j := LayoutPosition(rows, rows[i]);
      SelectedZeroIsFilled(rows, i, j);
    }
  }

  /** A selected row has a position in the layout. */
  lemma {:induction false} LayoutPosition(rows: seq<Row>, r: Row) returns (j: int)
    requires UniqueKeys(rows) && r in rows && Selected(rows, r)
    ensures 0 <= j < |Layout(rows)| && Layout(rows)[j] == r
  {
    LayoutRows(rows);
    j :| 0 <= j < |Layout(rows)| && Layout(rows)[j] == r;
  }

  /** The reported count is the number of zeros among the selected rows. */
  lemma {:induction false} ImputedCount(rows: seq<Row>)
    requires ImputeZeros(rows).Ok?
    ensures ImputeZeros(rows).value.imputed == CountIf(rows, (r: Row) => r.value == 0.0 && Selected(rows, r))
  {
    var sorted := SortByKey(rows);
    var sel := r => Selected(rows, r);
    var zero := (r: Row) => r.value == 0.0;
    var both := (r: Row) => r.value == 0.0 && Selected(rows, r);
    CountIfFilter(sorted, sel, zero);
    CountIfCongruent(sorted, x => sel(x) && zero(x), both);
    CountIfPermutation(sorted, rows, both);
  }

  /** Group `g` has a row for every year of the window. */
  ghost predicate CompleteGroup(rows: seq<Row>, g: GroupId) {
    forall y :: InWindow(y) ==> exists r :: r in rows && GroupOf(r) == g && r.year == y
  }

  /** The rows of group `g` in the window, in key order. */
  function GroupWindow(rows: seq<Row>, g: GroupId): seq<Row> {
    Filter(SortByKey(rows), r => GroupOf(r) == g && InWindow(r.year))
  }

  /** The group's window rows are rows of the table, of that group and in
      the window, and their years strictly increase. */
  lemma {:induction false} GroupWindowRows(rows: seq<Row>, g: GroupId)
    requires UniqueKeys(rows)
    ensures forall x :: x in GroupWindow(rows, g) <==> x in rows && GroupOf(x) == g && InWindow(x.year)
    ensures forall i, j :: 0 <= i < j < |GroupWindow(rows, g)| ==> GroupWindow(rows, g)[i].year < GroupWindow(rows, g)[j].year
  {
    var sorted := SortByKey(rows);
    var t := GroupWindow(rows, g);
    assert forall x :: x in sorted <==> x in rows by {
      forall x
        ensures x in sorted <==> x in rows
      {
        assert x in sorted <==> x in multiset(sorted);
        assert x in rows <==> x in multiset(rows);
      }
    }
    UniqueKeysSubset(rows, sorted);
    UniqueKeysSubset(sorted, t);
    StrLessIrreflexive(g.firm);
    StrLessIrreflexive(g.metric);
    forall i, j | 0 <= i < j < |t|
      ensures t[i].year < t[j].year
    {
      SortedUniqueIsStrict(t, i, j);
      assert t[i] in t && t[j] in t;
    }
  }

  /** A group with every window year has a window row for each of them. */
  lemma {:induction false} GroupWindowCovers(rows: seq<Row>, g: GroupId)
    requires UniqueKeys(rows) && CompleteGroup(rows, g)
    ensures forall i :: 0 <= i < |GroupWindow(rows, g)| ==> InWindow(GroupWindow(rows, g)[i].year)
    ensures forall y :: InWindow(y) ==> exists i :: 0 <= i < |GroupWindow(rows, g)| && GroupWindow(rows, g)[i].year == y
  {
    var t := GroupWindow(rows, g);
    GroupWindowRows(rows, g);
    forall y | InWindow(y)
      ensures exists i :: 0 <= i < |t| && t[i].year == y
    {
      var r :| r in rows && GroupOf(r) == g && r.year == y;
      assert r in t;
    }
    assert forall i :: 0 <= i < |t| ==> t[i] in t;
  }

  /** For a group with every window year, the classifier's input is the
      pivot row sliced to 2016..2020: five values, the group's row for year
      y sitting at position y - 2016. */
  lemma {:induction false} SeriesIsWindow(rows: seq<Row>, g: GroupId)
    requires UniqueKeys(rows) && CompleteGroup(rows, g)
    ensures |Series(rows, g)| == LastYear - FirstYear + 1
    ensures forall r :: r in rows && GroupOf(r) == g && InWindow(r.year) ==> Series(rows, g)[r.year - FirstYear] == r.value
  {
    var t := GroupWindow(rows, g);
    GroupWindowRows(rows, g);
    GroupWindowCovers(rows, g);
    WindowSlots(t);
    var series := Series(rows, g);
    assert series == Values(t);
    forall r | r in rows && GroupOf(r) == g && InWindow(r.year)
      ensures series[r.year - FirstYear] == r.value
    {
      assert r in t;
      SlotOfYear(t, r);
    }
  }

  /** In a table whose k-th row is for year 2016 + k, a row sits at
      position year - 2016. */
  lemma {:induction false} SlotOfYear(t: seq<Row>, r: Row)
    requires forall k :: 0 <= k < |t| ==> t[k].year == FirstYear + k
    requires r in t
    ensures 0 <= r.year - FirstYear < |t| && Values(t)[r.year - FirstYear] == r.value
  {
    var i :| 0 <= i < |t| && t[i] == r;
    assert r.year - FirstYear == i;
  }

  /** Strictly increasing window years that cover the window are exactly
      2016, 2017, ..., 2020. */
  lemma {:induction false} WindowSlots(t: seq<Row>)
    requires forall i, j :: 0 <= i < j < |t| ==> t[i].year < t[j].year
    requires forall i :: 0 <= i < |t| ==> InWindow(t[i].year)
    requires forall y :: InWindow(y) ==> exists i :: 0 <= i < |t| && t[i].year == y
    ensures |t| == LastYear - FirstYear + 1
    ensures forall k :: 0 <= k < |t| ==> t[k].year == FirstYear + k
  {
    ExactYears(t, LastYear - FirstYear);
    YearsLowerBound(t, |t| - 1);
    forall k | 0 <= k < |t|
      ensures t[k].year == FirstYear + k
    {
      ExactYears(t, k);
    }
  }

  /** In strictly increasing window years, position `k` is at least year
      2016 + k. */
  lemma {:induction false} YearsLowerBound(t: seq<Row>, k: int)
    requires forall i, j :: 0 <= i < j < |t| ==> t[i].year < t[j].year
    requires forall i :: 0 <= i < |t| ==> InWindow(t[i].year)
    requires 0 <= k < |t|
    ensures t[k].year >= FirstYear + k
  {
    if k > 0 {
      YearsLowerBound(t, k - 1);
    }
  }

  /** Strictly increasing window years that cover the window start at 2016
      and go up one year per position. */
  lemma {:induction false} ExactYears(t: seq<Row>, k: int)
    requires forall i, j :: 0 <= i < j < |t| ==> t[i].year < t[j].year
    requires forall i :: 0 <= i < |t| ==> InWindow(t[i].year)
    requires forall y :: InWindow(y) ==> exists i :: 0 <= i < |t| && t[i].year == y
    requires 0 <= k <= LastYear - FirstYear
    ensures k < |t| && t[k].year == FirstYear + k
  {
    assert InWindow(FirstYear + k);
    var i :| 0 <= i < |t| && t[i].year == FirstYear + k;
    if k == 0 {
      YearsLowerBound(t, i);
      assert i == 0;
    } else {
      ExactYears(t, k - 1);
      assert i >= k;
      assert t[k].year <= t[i].year;
    }
  }
}

=== FILE: impute_examples.dfy ===
/** Worked tables for `impute_zeros`: a single group whose zeros are filled
    from their neighbours, and two adjacent groups where a zero at the edge
    of one group is filled with help from the next group's values.

    Each lemma receives its table as a parameter pinned down by a
    `requires`, so that the literal is unfolded only in the proofs that
    need its contents and the others reason about it through small lemmas. */
module ImputeExamples {
  import opened Results
  import opened Order
  import opened Records
  import opened ZeroRuns
  import opened Fill
  import opened Impute

  /** The rows of one (Firm, Metric) group, the k-th value for year 2016 + k. */
  function GroupRows(firm: string, metric: string, vals: seq<real>): (rows: seq<Row>)
    ensures |rows| == |vals|
    ensures forall k :: 0 <= k < |vals| ==> rows[k] == Row(firm, metric, FirstYear + k, vals[k])
  {
    seq(|vals|, k requires 0 <= k < |vals| => Row(firm, metric, FirstYear + k, vals[k]))
  }

  /** A group's rows are in key order, with distinct keys. */
  lemma {:induction false} GroupRowsOrdered(firm: string, metric: string, vals: seq<real>)
    ensures SortedByKey(GroupRows(firm, metric, vals)) && UniqueKeys(GroupRows(firm, metric, vals))
  {
  }

  /** A group with five values has every window year. */
  lemma {:induction false} GroupRowsComplete(rows: seq<Row>, firm: string, metric: string, vals: seq<real>)
    requires |vals| == LastYear - FirstYear + 1
    requires forall x :: x in GroupRows(firm, metric, vals) ==> x in rows
    ensures CompleteGroup(rows, GroupId(firm, metric)) && WindowYearsPresent(rows)
  {
    var own := GroupRows(firm, metric, vals);
    forall y | InWindow(y)
      ensures exists r :: r in rows && GroupOf(r) == GroupId(firm, metric) && r.year == y
    {
      assert own[y - FirstYear] in own;
    }
    forall y | FirstYear <= y <= LastYear
      ensures YearPresent(rows, y)
    {
      assert own[y - FirstYear] in own;
    }
  }

  /** The classifier's input for a complete group is the group's values. */
  lemma {:induction false} SeriesOfGroup(rows: seq<Row>, firm: string, metric: string, vals: seq<real>)
    requires UniqueKeys(rows) && |vals| == LastYear - FirstYear + 1
    requires forall x :: x in GroupRows(firm, metric, vals) ==> x in rows
    ensures Series(rows, GroupId(firm, metric)) == vals
  {
    var g := GroupId(firm, metric);
    var own := GroupRows(firm, metric, vals);
    GroupRowsComplete(rows, firm, metric, vals);
    SeriesIsWindow(rows, g);
    forall k | 0 <= k < |vals|
      ensures Series(rows, g)[k] == vals[k]
    {
      assert own[k] in own;
    }
  }

  /** When every row is selected, the layout is the table itself. */
  lemma {:induction false} LayoutOfSortedTable(rows: seq<Row>)
    requires SortedByKey(rows)
    requires forall x :: x in rows ==> Selected(rows, x)
    ensures Layout(rows) == rows
  {
    SortSorted(rows);
    FilterAll(rows, r => Selected(rows, r));
  }

  /** When the layout is the whole table, the output is the table with each
      zero replaced by the fill computed at its position, where there is one. */
  lemma {:induction false} TableOfSelectedTable(rows: seq<Row>, nv: seq<Option<real>>, expected: seq<Row>)
    requires ImputeZeros(rows).Ok? && Layout(rows) == rows
    requires NewValues(Values(rows)) == nv
    requires |expected| == |rows|
    requires forall i :: 0 <= i < |rows| ==> KeyOf(expected[i]) == KeyOf(rows[i])
    requires forall i :: 0 <= i < |rows| ==>
               expected[i].value == (if Values(rows)[i] == 0.0 && nv[i].Some? then nv[i].value else Values(rows)[i])
    ensures ImputeZeros(rows).value.table == expected
  {
    var table := ImputeZeros(rows).value.table;
    assert forall i :: 0 <= i < |rows| ==> table[i] == expected[i] by {
      forall i | 0 <= i < |rows|
        ensures table[i] == expected[i]
      {
        TableRowOfSelectedTable(rows, nv, expected[i], i);
      }
    }
    SameRows(table, expected);
  }

  lemma {:induction false} SameRows(a: seq<Row>, b: seq<Row>)
    requires |a| == |b| && forall i :: 0 <= i < |a| ==> a[i] == b[i]
    ensures a == b
  {
  }

  lemma {:induction false} TableRowOfSelectedTable(rows: seq<Row>, nv: seq<Option<real>>, e: Row, i: int)
    requires ImputeZeros(rows).Ok? && Layout(rows) == rows && 0 <= i < |rows|
    requires NewValues(Values(rows)) == nv
    requires KeyOf(e) == KeyOf(rows[i])
    requires e.value == (if Values(rows)[i] == 0.0 && nv[i].Some? then nv[i].value else Values(rows)[i])
    ensures ImputeZeros(rows).value.table[i] == e
  {
    if rows[i].value == 0.0 {
      ImputedFromLayout(rows, i, i);
    } else {
      UnchangedUnlessSelectedZero(rows, i);
    }
  }

  /** In the single-group example every row is selected. */
  lemma {:induction false} SingleGroupSelected(rows: seq<Row>)
    requires rows == GroupRows("A", "M", [5.0, 0.0, 6.0, 0.0, 7.0])
    ensures UniqueKeys(rows) && SortedByKey(rows) && WindowYearsPresent(rows)
    ensures forall x :: x in rows ==> Selected(rows, x)
  {
    GroupRowsOrdered("A", "M", [5.0, 0.0, 6.0, 0.0, 7.0]);
    SingleGroupEligible(rows);
  }

  /** The single group is complete and imputed. */
  lemma {:induction false} SingleGroupEligible(rows: seq<Row>)
    requires rows == GroupRows("A", "M", [5.0, 0.0, 6.0, 0.0, 7.0])
    requires UniqueKeys(rows)
    ensures WindowYearsPresent(rows) && Eligible(rows, GroupId("A", "M"))
  {
    var vals := [5.0, 0.0, 6.0, 0.0, 7.0];
    SeriesOfGroup(rows, "A", "M", vals);
    GroupRowsComplete(rows, "A", "M", vals);
    ZeroRuns.ExampleInteriorZeros();
    assert rows[1] in rows;
  }

  /** One group, 2016..2020 = [5, 0, 6, 0, 7]: the zeros become 5.5 and 6.5
      and two values are reported as imputed. */
  lemma {:induction false} ExampleSingleGroup(rows: seq<Row>)
    requires rows == GroupRows("A", "M", [5.0, 0.0, 6.0, 0.0, 7.0])
    ensures ImputeZeros(rows) == Ok(Imputation(GroupRows("A", "M", [5.0, 5.5, 6.0, 6.5, 7.0]), 2))
  {
    SingleGroupTable(rows);
    SingleGroupCount(rows);
  }

  lemma {:induction false} SingleGroupTable(rows: seq<Row>)
    requires rows == GroupRows("A", "M", [5.0, 0.0, 6.0, 0.0, 7.0])
    ensures ImputeZeros(rows).Ok?
    ensures ImputeZeros(rows).value.table == GroupRows("A", "M", [5.0, 5.5, 6.0, 6.5, 7.0])
  {
    var vals := [5.0, 0.0, 6.0, 0.0, 7.0];
    var nv := [None, Some(5.5), None, Some(6.5), None];
    SingleGroupLayout(rows);
    SingleGroupFills(rows);
    SingleGroupOutcome(rows, nv);
    TableOfSelectedTable(rows, nv, GroupRows("A", "M", [5.0, 5.5, 6.0, 6.5, 7.0]));
  }

  lemma {:induction false} SingleGroupFills(rows: seq<Row>)
    requires rows == GroupRows("A", "M", [5.0, 0.0, 6.0, 0.0, 7.0])
    ensures NewValues(Values(rows)) == [None, Some(5.5), None, Some(6.5), None]
  {
    assert Values(rows) == [5.0, 0.0, 6.0, 0.0, 7.0];
    Fill.ExampleInteriorZeros();
  }

  lemma {:induction false} SingleGroupLayout(rows: seq<Row>)
    requires rows == GroupRows("A", "M", [5.0, 0.0, 6.0, 0.0, 7.0])
    ensures ImputeZeros(rows).Ok? && Layout(rows) == rows
  {
    SingleGroupSelected(rows);
    ZeroRow(rows, 1);
    LayoutOfSortedTable(rows);
  }

  lemma {:induction false} SingleGroupCount(rows: seq<Row>)
    requires rows == GroupRows("A", "M", [5.0, 0.0, 6.0, 0.0, 7.0])
    ensures ImputeZeros(rows).Ok? && ImputeZeros(rows).value.imputed == 2
  {
    SingleGroupSelected(rows);
    ZeroRow(rows, 1);
    ImputedCount(rows);
    ZerosAreCounted(rows, [5.0, 0.0, 6.0, 0.0, 7.0]);
  }

  /** The rows expected from the single-group example, position by position. */
  lemma {:induction false} SingleGroupOutcome(rows: seq<Row>, nv: seq<Option<real>>)
    requires rows == GroupRows("A", "M", [5.0, 0.0, 6.0, 0.0, 7.0])
    requires nv == [None, Some(5.5), None, Some(6.5), None]
    ensures forall i :: 0 <= i < |rows| ==>
              KeyOf(GroupRows("A", "M", [5.0, 5.5, 6.0, 6.5, 7.0])[i]) == KeyOf(rows[i])
    ensures forall i :: 0 <= i < |rows| ==>
              GroupRows("A", "M", [5.0, 5.5, 6.0, 6.5, 7.0])[i].value
              == (if Values(rows)[i] == 0.0 && nv[i].Some? then nv[i].value else Values(rows)[i])
  {
  }

  /** Every row of a one-group table is selected when the group is eligible,
      so the count of selected zeros is the count of zeros. */
  lemma {:induction false} ZerosAreCounted(rows: seq<Row>, vals: seq<real>)
    requires rows == GroupRows("A", "M", vals) && vals == [5.0, 0.0, 6.0, 0.0, 7.0]
    requires forall x :: x in rows ==> Selected(rows, x)
    ensures CountIf(rows, (r: Row) => r.value == 0.0 && Selected(rows, r)) == 2
  {
    var p := (r: Row) => r.value == 0.0 && Selected(rows, r);
    assert rows == [rows[0]] + [rows[1]] + [rows[2]] + [rows[3]] + [rows[4]];
    CountIfAppend([rows[0]] + [rows[1]] + [rows[2]] + [rows[3]], [rows[4]], p);
    CountIfAppend([rows[0]] + [rows[1]] + [rows[2]], [rows[3]], p);
    CountIfAppend([rows[0]] + [rows[1]], [rows[2]], p);
    CountIfAppend([rows[0]], [rows[1]], p);
  }

  /** [5, 0, 6, 0, 0] has a zero between 5 and 6; [0, 4, 0, 0, 8] has zeros
      between 4 and 8: neither is structural. */
  lemma {:induction false} TwoGroupsNotStructural()
    ensures !ZeroTest([5.0, 0.0, 6.0, 0.0, 0.0])
    ensures !ZeroTest([0.0, 4.0, 0.0, 0.0, 8.0])
  {
    var a, b := [5.0, 0.0, 6.0, 0.0, 0.0], [0.0, 4.0, 0.0, 0.0, 8.0];
    assert a[0] != 0.0 && a[2] != 0.0;
    assert InteriorZero(a, 1);
    assert b[1] != 0.0 && b[4] != 0.0;
    assert InteriorZero(b, 2);
  }

  /** Group (A, M) followed by group (B, M): keys sorted and distinct. */
  lemma {:induction false} TwoGroupsOrdered(rows: seq<Row>)
    requires rows == GroupRows("A", "M", [5.0, 0.0, 6.0, 0.0, 0.0]) + GroupRows("B", "M", [0.0, 4.0, 0.0, 0.0, 8.0])
    ensures SortedByKey(rows) && UniqueKeys(rows)
  {
    assert StrLess("A", "B");
    forall i, j | 0 <= i < j < |rows|
      ensures KeyLess(KeyOf(rows[i]), KeyOf(rows[j]))
    {
      if i < 5 <= j {
        assert rows[i].firm == "A" && rows[j].firm == "B";
      } else {
        assert rows[i].year < rows[j].year;
      }
    }
  }

  /** In the two-group table every row is selected. */
  lemma {:induction false} TwoGroupsSelected(rows: seq<Row>)
    requires rows == GroupRows("A", "M", [5.0, 0.0, 6.0, 0.0, 0.0]) + GroupRows("B", "M", [0.0, 4.0, 0.0, 0.0, 8.0])
    ensures UniqueKeys(rows) && SortedByKey(rows) && WindowYearsPresent(rows)
    ensures forall x :: x in rows ==> Selected(rows, x)
  {
    TwoGroupsOrdered(rows);
    TwoGroupsEligible(rows);
    TwoGroupsMembers(rows);
  }

  /** Both groups of the two-group table are complete and imputed. */
  lemma {:induction false} TwoGroupsEligible(rows: seq<Row>)
    requires rows == GroupRows("A", "M", [5.0, 0.0, 6.0, 0.0, 0.0]) + GroupRows("B", "M", [0.0, 4.0, 0.0, 0.0, 8.0])
    requires UniqueKeys(rows)
    ensures WindowYearsPresent(rows)
    ensures Eligible(rows, GroupId("A", "M")) && Eligible(rows, GroupId("B", "M"))
  {
    var va, vb := [5.0, 0.0, 6.0, 0.0, 0.0], [0.0, 4.0, 0.0, 0.0, 8.0];
    var ra, rb := GroupRows("A", "M", va), GroupRows("B", "M", vb);
    assert forall x :: x in ra ==> x in rows;
    assert forall x :: x in rb ==> x in rows;
    GroupRowsComplete(rows, "A", "M", va);
    TwoGroupsNotStructural();
    GroupEligible(rows, "A", "M", va, 1);
    GroupEligible(rows, "B", "M", vb, 0);
  }

  /** A table with a zero somewhere has something to impute. */
  lemma {:induction false} ZeroRow(rows: seq<Row>, i: int)
    requires 0 <= i < |rows| && rows[i].value == 0.0
    ensures AnyZero(rows)
  {
    assert rows[i] in rows;
  }

  /** Every row of the two-group table is in the window and in one of the
      two groups. */
  lemma {:induction false} TwoGroupsMembers(rows: seq<Row>)
    requires rows == GroupRows("A", "M", [5.0, 0.0, 6.0, 0.0, 0.0]) + GroupRows("B", "M", [0.0, 4.0, 0.0, 0.0, 8.0])
    ensures forall x :: x in rows ==> InWindow(x.year) && (GroupOf(x) == GroupId("A", "M") || GroupOf(x) == GroupId("B", "M"))
  {
    forall x | x in rows
      ensures InWindow(x.year) && (GroupOf(x) == GroupId("A", "M") || GroupOf(x) == GroupId("B", "M"))
    {
      var i :| 0 <= i < |rows| && rows[i] == x;
      if i < 5 {
        assert x == Row("A", "M", FirstYear + i, [5.0, 0.0, 6.0, 0.0, 0.0][i]);
      } else {
        assert x == Row("B", "M", FirstYear + i - 5, [0.0, 4.0, 0.0, 0.0, 8.0][i - 5]);
      }
    }
  }

  /** A complete group with a zero whose values are not structural is
      imputed. */
  lemma {:induction false} GroupEligible(rows: seq<Row>, firm: string, metric: string, vals: seq<real>, z: int)
    requires UniqueKeys(rows) && |vals| == LastYear - FirstYear + 1
    requires forall x :: x in GroupRows(firm, metric, vals) ==> x in rows
    requires 0 <= z < |vals| && vals[z] == 0.0 && !ZeroTest(vals)
    ensures Eligible(rows, GroupId(firm, metric))
  {
    SeriesOfGroup(rows, firm, metric, vals);
    assert GroupRows(firm, metric, vals)[z] in GroupRows(firm, metric, vals);
  }

  /** Two adjacent groups, (A, M) = [5, 0, 6, 0, 0] and (B, M) =
      [0, 4, 0, 0, 8]. The sorted column of selected values runs straight
      from A's 2020 into B's 2016, so A's 2020 zero and B's 2016 zero both
      become the mean of A's 6 and B's 4, which is 5; fills kept inside each
      group would have given 6 and 4. */
  lemma {:induction false} ExampleFillAcrossGroups(rows: seq<Row>)
    requires rows == GroupRows("A", "M", [5.0, 0.0, 6.0, 0.0, 0.0]) + GroupRows("B", "M", [0.0, 4.0, 0.0, 0.0, 8.0])
    ensures ImputeZeros(rows).Ok?
    ensures ImputeZeros(rows).value.table[4] == Row("A", "M", 2020, 5.0)
    ensures ImputeZeros(rows).value.table[5] == Row("B", "M", 2016, 5.0)
  {
    TwoGroupsLayoutValues(rows);
    TwoGroupsValues(rows);
    BetweenSixAndFour(rows, 4);
    BetweenSixAndFour(rows, 5);
  }

  lemma {:induction false} TwoGroupsValues(rows: seq<Row>)
    requires rows == GroupRows("A", "M", [5.0, 0.0, 6.0, 0.0, 0.0]) + GroupRows("B", "M", [0.0, 4.0, 0.0, 0.0, 8.0])
    ensures |rows| == 10 && rows[2].value == 6.0 && rows[6].value == 4.0
    ensures rows[3].value == 0.0 && rows[4].value == 0.0 && rows[5].value == 0.0
    ensures KeyOf(rows[4]) == Key("A", "M", 2020) && KeyOf(rows[5]) == Key("B", "M", 2016)
  {
  }

  /** A zero at position 4 or 5 of the layout lies between the 6 at
      position 2 and the 4 at position 6, with only zeros between. */
  lemma {:induction false} BetweenSixAndFour(rows: seq<Row>, j: int)
    requires ImputeZeros(rows).Ok? && |rows| == |Layout(rows)| == 10
    requires Layout(rows)[2].value == 6.0 && Layout(rows)[6].value == 4.0
    requires Layout(rows)[3].value == 0.0 && Layout(rows)[4].value == 0.0 && Layout(rows)[5].value == 0.0
    requires j == 4 || j == 5
    requires Layout(rows)[j] == rows[j]
    ensures ImputeZeros(rows).value.table[j].value == 5.0
  {
    var vals := Values(Layout(rows));
    assert NewValues(vals)[j] == Some(5.0) by {
      MeanOfSixAndFour(vals, j);
    }
    ImputedFromLayout(rows, j, j);
  }

  /** In a column [_, _, 6, 0, 0, 0, 4, ...] the zeros at 4 and 5 become 5. */
  lemma {:induction false} MeanOfSixAndFour(vals: seq<real>, j: int)
    requires |vals| == 10 && vals[2] == 6.0 && vals[6] == 4.0
    requires vals[3] == 0.0 && vals[4] == 0.0 && vals[5] == 0.0
    requires j == 4 || j == 5
    ensures NewValues(vals)[j] == Some(5.0)
  {
    forall k | 2 < k < 6 && k != j
      ensures vals[k] == 0.0
    {
      assert k == 3 || k == 4 || k == 5;
    }
    MidpointOfNeighbours(vals, 2, j, 6);
  }

  lemma {:induction false} TwoGroupsLayoutValues(rows: seq<Row>)
    requires rows == GroupRows("A", "M", [5.0, 0.0, 6.0, 0.0, 0.0]) + GroupRows("B", "M", [0.0, 4.0, 0.0, 0.0, 8.0])
    ensures ImputeZeros(rows).Ok? && |rows| == |Layout(rows)| == 10
    ensures Layout(rows)[2].value == 6.0 && Layout(rows)[6].value == 4.0
    ensures Layout(rows)[3].value == 0.0 && Layout(rows)[4].value == 0.0 && Layout(rows)[5].value == 0.0
    ensures Layout(rows)[4] == rows[4] && Layout(rows)[5] == rows[5]
  {
    TwoGroupsLayout(rows);
    TwoGroupsValues(rows);
  }

  lemma {:induction false} TwoGroupsLayout(rows: seq<Row>)
    requires rows == GroupRows("A", "M", [5.0, 0.0, 6.0, 0.0, 0.0]) + GroupRows("B", "M", [0.0, 4.0, 0.0, 0.0, 8.0])
    ensures ImputeZeros(rows).Ok? && Layout(rows) == rows
  {
    TwoGroupsSelected(rows);
    ZeroRow(rows, 1);
    LayoutOfSortedTable(rows);
  }

  /** A table without a 2016 column fails at the slice of the window,
      before the absence of zeros is ever noticed. */
  lemma {:induction false} ExampleMissingWindowEnd(rows: seq<Row>)
    requires rows == [Row("A", "M", 2017, 1.0)]
    ensures ImputeZeros(rows) == Err(MissingYear)
  {
    assert !YearPresent(rows, FirstYear) by {
      forall r | r in rows
        ensures r.year != FirstYear
      {
        assert r == rows[0];
      }
    }
  }

  /** A complete group without zeros passes the slice and fails at the
      mask, since the filtered pivot is empty. */
  lemma {:induction false} ExampleNothingToImpute(rows: seq<Row>)
    requires rows == GroupRows("A", "M", [1.0, 2.0, 3.0, 4.0, 5.0])
    ensures ImputeZeros(rows) == Err(NothingToImpute)
  {
    var vals := [1.0, 2.0, 3.0, 4.0, 5.0];
    GroupRowsOrdered("A", "M", vals);
    GroupRowsComplete(rows, "A", "M", vals);
    assert !AnyZero(rows) by {
      forall r | r in rows
        ensures r.value != 0.0
      {
        var k :| 0 <= k < |rows| && rows[k] == r;
        assert r.value == vals[k];
      }
    }
  }
}

=== FILE: load.dfy ===
/** `load_data` and `report_on_dataset_join` (load_data.py): concatenate the
    melted General and Underwriting sheets, convert the whole Year column
    (after removing "YE") to integers and then the whole Value column to
    numbers, and count the firms the two sheets share or do not share. */
module Load {
  import opened Results
  import opened Reshape
  import opened Records
  import Impute
  import Fill

  /** Python's `s.replace("YE", "")`: occurrences are removed left to right,
      without overlap, in a single pass. */
  function StripYE(s: string): (t: string)
    ensures |t| <= |s|
    ensures ContainsYE(s) ==> |t| < |s|
    ensures !ContainsYE(s) ==> t == s
  {
    if |s| >= 2 && s[0] == 'Y' && s[1] == 'E' then
      assert ContainsYE(s) by { assert s[0] == 'Y' && s[1] == 'E'; }
      StripYE(s[2..])
    else if |s| == 0 then ""
    else
      var rest := StripYE(s[1..]);
      assert ContainsYE(s[1..]) ==> ContainsYE(s) by {
        if ContainsYE(s[1..]) {
          var i :| 0 <= i < |s[1..]| - 1 && s[1..][i] == 'Y' && s[1..][i + 1] == 'E';
          assert s[i + 1] == 'Y' && s[i + 2] == 'E';
        }
      }
      assert !ContainsYE(s) ==> !ContainsYE(s[1..]) && s == [s[0]] + s[1..];
      [s[0]] + rest
  }

  /** "YE" occurs somewhere in `s`. */
  predicate ContainsYE(s: string) {
    exists i :: 0 <= i < |s| - 1 && s[i] == 'Y' && s[i + 1] == 'E'
  }

  /** A leading "YE" is removed and the rest is processed as before. */
  lemma {:induction false} StripYEPrefix(s: string)
    ensures StripYE("YE" + s) == StripYE(s)
  {
    assert ("YE" + s)[2..] == s;
  }

  /** The first occurrence is the one removed first: text before it that
      holds no "YE" is kept whole, and the rest is processed on its own. */
  lemma {:induction false} StripYEFirst(a: string, b: string)
    requires !ContainsYE(a)
    ensures StripYE(a + "YE" + b) == a + StripYE(b)
  {
    if |a| == 0 {
      assert a + "YE" + b == "YE" + b;
      StripYEPrefix(b);
    } else {
      KeepFirst(a, b);
      ContainsYETail(a);
      StripYEFirst(a[1..], b);
      ConsAppend(a, StripYE(b));
    }
  }

  /** Before the first "YE", the leading character is kept. */
  lemma {:induction false} KeepFirst(a: string, b: string)
    requires |a| >= 1 && !ContainsYE(a)
    ensures StripYE(a + "YE" + b) == [a[0]] + StripYE(a[1..] + "YE" + b)
  {
    var s := a + "YE" + b;
    assert s == a + ("YE" + b);
    NoLeadingYE(a, "YE" + b);
    StripYEKeep(s);
    assert s[1..] == a[1..] + "YE" + b;
  }

  /** Putting the first character back in front of the tail. */
  lemma {:induction false} ConsAppend(a: string, rest: string)
    requires |a| >= 1
    ensures [a[0]] + (a[1..] + rest) == a + rest
  {
    assert a == [a[0]] + a[1..];
  }

  /** Text without "YE" followed by a 'Y' does not start with "YE". */
  lemma {:induction false} NoLeadingYE(a: string, c: string)
    requires |a| >= 1 && !ContainsYE(a) && |c| >= 1 && c[0] == 'Y'
    ensures !((a + c)[0] == 'Y' && (a + c)[1] == 'E')
  {
    if |a| >= 2 {
      assert !(a[0] == 'Y' && a[1] == 'E');
    } else {
      assert (a + c)[1] == 'Y';
    }
  }

  /** An occurrence in the tail is an occurrence in the whole. */
  lemma {:induction false} ContainsYETail(a: string)
    requires |a| >= 1
    ensures ContainsYE(a[1..]) ==> ContainsYE(a)
  {
    if ContainsYE(a[1..]) {
      var i :| 0 <= i < |a[1..]| - 1 && a[1..][i] == 'Y' && a[1..][i + 1] == 'E';
      assert a[i + 1] == 'Y' && a[i + 2] == 'E';
    }
  }

  /** A first character that does not start "YE" is kept. */
  lemma {:induction false} StripYEKeep(s: string)
    requires |s| >= 1 && !(|s| >= 2 && s[0] == 'Y' && s[1] == 'E')
    ensures StripYE(s) == [s[0]] + StripYE(s[1..])
  {
  }

  predicate IsDigit(ch: char) {
    '0' <= ch <= '9'
  }

  predicate AllDigits(s: string) {
    forall i :: 0 <= i < |s| ==> IsDigit(s[i])
  }

  /** The number a string of decimal digits denotes. */
  function DigitsValue(s: string): (n: nat)
    requires AllDigits(s)
  {
    if |s| == 0 then 0
    else DigitsValue(s[..|s| - 1]) * 10 + (s[|s| - 1] - '0') as nat
  }

  /** What Python's `int(s)` accepts here: an optional sign, then one or
      more decimal digits. */
  predicate IntLiteral(s: string) {
    if |s| > 0 && (s[0] == '-' || s[0] == '+') then |s| > 1 && AllDigits(s[1..])
    else |s| > 0 && AllDigits(s)
  }

  /** `int(s)`; None stands for the ValueError. */
  function ParseInt(s: string): (r: Option<int>)
    ensures r.Some? <==> IntLiteral(s)
  {
    if |s| > 0 && (s[0] == '-' || s[0] == '+') then
      if |s| > 1 && AllDigits(s[1..]) then
        var magnitude: int := DigitsValue(s[1..]);
        Some(if s[0] == '-' then -magnitude else magnitude)
      else None
    else if |s| > 0 && AllDigits(s) then Some(DigitsValue(s))
    else None
  }

  /** The decimal digits of `n`, as `str(n)` writes them. */
  function ShowNat(n: nat): (s: string)
    ensures |s| >= 1 && AllDigits(s)
  {
    if n < 10 then ['0' + n as char]
    else ShowNat(n / 10) + ['0' + (n % 10) as char]
  }

  /** `str(n)` for any integer. */
  function ShowInt(n: int): string {
    if n < 0 then "-" + ShowNat(-n) else ShowNat(n)
  }

  /** Reading the digits of `n` gives `n` back. */
  lemma {:induction false} DigitsRoundTrip(n: nat)
    ensures DigitsValue(ShowNat(n)) == n
  {
    if n >= 10 {
      var s := ShowNat(n);
      DigitsRoundTrip(n / 10);
      assert s[..|s| - 1] == ShowNat(n / 10);
    }
  }

  /** `int(str(n)) == n`. */
  lemma {:induction false} ParseShowInt(n: int)
    ensures ParseInt(ShowInt(n)) == Some(n)
  {
    if n < 0 {
      var digits := ShowNat(-n);
      DigitsRoundTrip(-n);
      assert ("-" + digits)[1..] == digits;
      assert ParseInt("-" + digits) == Some(n);
    } else {
      DigitsRoundTrip(n);
      ParseDigits(ShowNat(n));
    }
  }

  /** Digits alone parse to the number they denote. */
  lemma {:induction false} ParseDigits(s: string)
    requires |s| >= 1 && AllDigits(s)
    ensures ParseInt(s) == Some(DigitsValue(s))
  {
    assert IsDigit(s[0]);
  }

  /** One Year cell of the converted column: text with "YE" removed must be
      an integer literal. A cell that is not text has no `.str` value, so the
      conversion fails. */
  function ParseYear(c: Cell): (r: Result<int>)
    ensures r.Err? ==> r.error == YearFormat
    ensures r.Ok? <==> c.Text? && IntLiteral(StripYE(c.text))
  {
    if c.Text? then
      match ParseInt(StripYE(c.text))
      case Some(y) => Ok(y)
      case None => Err(YearFormat)
    else Err(YearFormat)
  }

  /** Header labels of the form "YE2016" give the year they name. */
  lemma {:induction false} ParseYearLabel(y: nat)
    ensures ParseYear(Text("YE" + ShowNat(y))) == Ok(y)
  {
    var digits := ShowNat(y);
    StripYEPrefix(digits);
    assert !ContainsYE(digits) by {
      forall i | 0 <= i < |digits| - 1
        ensures digits[i] != 'Y'
      {
        assert IsDigit(digits[i]);
      }
    }
    assert StripYE("YE" + digits) == digits;
    DigitsRoundTrip(y);
    ParseDigits(digits);
  }

  /** One Value cell of the converted column. */
  function ParseValue(c: Cell): (r: Result<real>)
    ensures r.Ok? <==> c.Number?
    ensures r.Ok? ==> r.value == c.number
    ensures c.Blank? ==> r == Err(MissingValue)
    ensures c.Text? ==> r == Err(NonNumericValue)
  {
    match c
    case Number(x) => Ok(x)
    case Blank => Err(MissingValue)
    case Text(_) => Err(NonNumericValue)
  }

  /** A Firm or Metric cell used as a text label. */
  function Label(c: Cell): (r: Result<string>)
    ensures r.Ok? <==> c.Text?
    ensures r.Ok? ==> r.value == c.text
    ensures r.Err? ==> r.error == UnsupportedLabel
  {
    if c.Text? then Ok(c.text) else Err(UnsupportedLabel)
  }

  /** Converting a column cell by cell: the converted column, or the error of
      the first cell that does not convert. */
  function Traverse<T>(rows: seq<LongRow>, f: LongRow -> Result<T>): (r: Result<seq<T>>)
    ensures r.Ok? <==> forall i :: 0 <= i < |rows| ==> f(rows[i]).Ok?
    ensures r.Ok? ==> |r.value| == |rows| && forall i :: 0 <= i < |rows| ==> r.value[i] == f(rows[i]).value
    ensures r.Err? ==> exists i :: 0 <= i < |rows| && f(rows[i]) == Err(r.error)
                                   && forall j :: 0 <= j < i ==> f(rows[j]).Ok?
  {
    if |rows| == 0 then Ok([])
    else
      match f(rows[0])
      case Err(e) => Err(e)
      case Ok(x) =>
        var rest := Traverse(rows[1..], f);
        if rest.Err? then
          var k :| 0 <= k < |rows[1..]| && f(rows[1..][k]) == Err(rest.error)
                   && forall j :: 0 <= j < k ==> f(rows[1..][j]).Ok?;
          assert f(rows[k + 1]) == Err(rest.error);
          assert forall j :: 0 <= j < k + 1 ==> f(rows[j]).Ok? by {
            forall j | 0 < j < k + 1
              ensures f(rows[j]).Ok?
            {
              assert rows[j] == rows[1..][j - 1];
            }
          }
          Err(rest.error)
        else
          assert forall i :: 0 < i < |rows| ==> rows[i] == rows[1..][i - 1];
          Ok([x] + rest.value)
  }

  /** The two melted sheets one after the other, rows of the first sheet
      first: `pd.concat([...]).reset_index(drop=True)`. */
  function Concat(general: seq<LongRow>, underwriting: seq<LongRow>): (ff: seq<LongRow>)
    ensures |ff| == |general| + |underwriting|
    ensures forall i :: 0 <= i < |general| ==> ff[i] == general[i]
    ensures forall i :: 0 <= i < |underwriting| ==> ff[|general| + i] == underwriting[i]
  {
    general + underwriting
  }

  /** The typed row a melted row becomes once every conversion succeeded. */
  predicate Converted(l: LongRow, r: Row) {
    Label(l.firm) == Ok(r.firm) && Label(l.metric) == Ok(r.metric)
    && ParseYear(l.year) == Ok(r.year) && ParseValue(l.value) == Ok(r.value)
  }

  /** A melted row that converts: text labels, a Year that parses once
      "YE" is removed, and a numeric Value. */
  predicate Convertible(l: LongRow) {
    l.firm.Text? && l.metric.Text? && ParseYear(l.year).Ok? && l.value.Number?
  }

  /** Converting the concatenated table column by column: Year first, then
      Value; a Firm or Metric that is not text is refused last. */
  function Normalise(ff: seq<LongRow>): (r: Result<seq<Row>>)
    ensures r.Ok? ==> |r.value| == |ff| && forall i :: 0 <= i < |ff| ==> Converted(ff[i], r.value[i])
    ensures (exists i :: 0 <= i < |ff| && ParseYear(ff[i].year).Err?) ==> r == Err(YearFormat)
    ensures (forall i :: 0 <= i < |ff| ==> ParseYear(ff[i].year).Ok?) &&
            (exists i :: 0 <= i < |ff| && ParseValue(ff[i].value).Err?) ==>
              r.Err? && r.error in {MissingValue, NonNumericValue}
    ensures r.Err? <==> exists i :: 0 <= i < |ff| && !Convertible(ff[i])
  {
    var years :- Traverse(ff, (l: LongRow) => ParseYear(l.year));
    var values :- Traverse(ff, (l: LongRow) => ParseValue(l.value));
    var firms :- Traverse(ff, (l: LongRow) => Label(l.firm));
    var metrics :- Traverse(ff, (l: LongRow) => Label(l.metric));
    Ok(seq(|ff|, i requires 0 <= i < |ff| => Row(firms[i], metrics[i], years[i], values[i])))
  }

  /** `load_data` without the file reads: each sheet is reshaped, the two
      results concatenated and their columns converted. */
  function LoadData(generalSheet: seq<seq<Cell>>, underwritingSheet: seq<seq<Cell>>): (r: Result<seq<Row>>)
    requires Rectangular(generalSheet) && Rectangular(underwritingSheet)
    ensures LoadDataset(generalSheet).Err? ==> r == Err(LoadDataset(generalSheet).error)
    ensures LoadDataset(generalSheet).Ok? && LoadDataset(underwritingSheet).Err? ==>
              r == Err(LoadDataset(underwritingSheet).error)
    ensures r.Ok? ==> LoadDataset(generalSheet).Ok? && LoadDataset(underwritingSheet).Ok?
    ensures r.Ok? ==> |r.value| == |LoadDataset(generalSheet).value| + |LoadDataset(underwritingSheet).value|
    ensures r.Ok? ==> forall i :: 0 <= i < |r.value| ==>
              Converted(Concat(LoadDataset(generalSheet).value, LoadDataset(underwritingSheet).value)[i], r.value[i])
    ensures LoadDataset(generalSheet).Ok? && LoadDataset(underwritingSheet).Ok? ==>
              var ff := Concat(LoadDataset(generalSheet).value, LoadDataset(underwritingSheet).value);
              && (r.Ok? <==> forall i :: 0 <= i < |ff| ==> Convertible(ff[i]))
              && ((exists i :: 0 <= i < |ff| && ParseYear(ff[i].year).Err?) ==> r == Err(YearFormat))
  {
    var general :- LoadDataset(generalSheet);
    var underwriting :- LoadDataset(underwritingSheet);
    Normalise(Concat(general, underwriting))
  }

  /** The three counts `report_on_dataset_join` prints. */
  datatype JoinCounts = JoinCounts(both: nat, onlyFirst: nat, onlySecond: nat)

  /** The distinct Firm cells of a melted sheet: `set(df["Firm"].unique())`. */
  function Firms(d: seq<LongRow>): (s: set<Cell>)
    ensures forall c :: c in s <==> exists i :: 0 <= i < |d| && d[i].firm == c
  {
    set i | 0 <= i < |d| :: d[i].firm
  }

  function ReportOnJoin(general: seq<LongRow>, underwriting: seq<LongRow>): (counts: JoinCounts)
    ensures counts.both + counts.onlyFirst == |Firms(general)|
    ensures counts.both + counts.onlySecond == |Firms(underwriting)|
    ensures counts.both + counts.onlyFirst + counts.onlySecond == |Firms(general) + Firms(underwriting)|
    ensures counts.both == 0 <==> Firms(general) !! Firms(underwriting)
  {
    var a, b := Firms(general), Firms(underwriting);
    SplitCount(a, b);
    SplitCount(b, a);
    assert b * a == a * b;
    assert a + b == (a * b) + (a - b) + (b - a);
    JoinCounts(|a * b|, |a - b|, |b - a|)
  }

  /** A set is its part inside another set and its part outside it. */
  lemma {:induction false} SplitCount<T>(a: set<T>, b: set<T>)
    ensures |a * b| + |a - b| == |a|
  {
    assert a == (a * b) + (a - b);
    assert (a * b) !! (a - b);
  }

  /** `full_data_load`: load both sheets, then impute zeros. */
  function FullDataLoad(generalSheet: seq<seq<Cell>>, underwritingSheet: seq<seq<Cell>>): (r: Result<Impute.Imputation>)
    requires Rectangular(generalSheet) && Rectangular(underwritingSheet)
    ensures LoadData(generalSheet, underwritingSheet).Err? ==> r == Err(LoadData(generalSheet, underwritingSheet).error)
    ensures r.Ok? ==> |r.value.table| == |LoadDataset(generalSheet).value| + |LoadDataset(underwritingSheet).value|
    ensures r.Ok? ==> forall i :: 0 <= i < |r.value.table| ==>
              KeyOf(r.value.table[i]) == KeyOf(LoadData(generalSheet, underwritingSheet).value[i])
    ensures LoadData(generalSheet, underwritingSheet).Ok? ==>
              var ff := LoadData(generalSheet, underwritingSheet).value;
              && (!UniqueKeys(ff) ==> r == Err(DuplicateKey))
              && (UniqueKeys(ff) && !Impute.WindowEndsPresent(ff) ==> r == Err(MissingYear))
              && (UniqueKeys(ff) && Impute.WindowEndsPresent(ff) && !Impute.AnyZero(ff) ==> r == Err(NothingToImpute))
              && (UniqueKeys(ff) && Impute.AnyZero(ff) && !Impute.WindowYearsPresent(ff) ==> r == Err(MissingYear))
              && (UniqueKeys(ff) && Impute.AnyZero(ff) && Impute.WindowYearsPresent(ff) ==> r.Ok?)
    ensures r.Ok? ==>
              var ff := LoadData(generalSheet, underwritingSheet).value;
              forall i :: 0 <= i < |ff| && !(ff[i].value == 0.0 && Impute.Selected(ff, ff[i])) ==> r.value.table[i] == ff[i]
    ensures r.Ok? ==>
              var ff := LoadData(generalSheet, underwritingSheet).value;
              var layout := Impute.Layout(ff);
              forall i :: 0 <= i < |ff| && ff[i].value == 0.0 && Impute.Selected(ff, ff[i]) ==>
                exists j :: 0 <= j < |layout| && layout[j] == ff[i] &&
                  Fill.NewValues(Values(layout))[j].Some? && r.value.table[i].value == Fill.NewValues(Values(layout))[j].value
  {
    var ff :- LoadData(generalSheet, underwritingSheet);
    var result := Impute.ImputeZeros(ff);
    if result.Ok? then Impute.ImputedRows(ff); result else result
  }
}

=== FILE: markdown.dfy ===
/** `generate_markdown_table` (helper_functions.py): refuse an empty table,
    make the file name end in ".md", and build the header line, the
    separator line and one line per data row. Writing the file is not
    modelled: the result is the file name and the lines, each of which the
    source writes followed by a newline. */
module Markdown {
  import opened Results
  import opened Text

  /** A table as the renderer sees it: column names and rows of cells,
      every cell already turned into text. */
  datatype Frame = Frame(columns: seq<string>, rows: seq<seq<string>>)

  /** Every row has one cell per column, as in any DataFrame. */
  predicate WellFormed(frame: Frame) {
    forall i :: 0 <= i < |frame.rows| ==> |frame.rows[i]| == |frame.columns|
  }

  /** `DataFrame.empty`: no rows or no columns. */
  predicate IsEmpty(frame: Frame) {
    |frame.columns| == 0 || |frame.rows| == 0
  }

  /** The name of the file the table goes to. */
  function MdFilename(name: string): (f: string)
    ensures EndsWith(f, ".md")
    ensures |name| <= |f| <= |name| + 3 && f[..|name|] == name
    ensures f == name <==> EndsWith(name, ".md")
    ensures f == name || f == name + ".md"
  {
    if EndsWith(name, ".md") then name else name + ".md"
  }

  /** `"| " + " | ".join(cells) + " |"`. */
  function PipeRow(cells: seq<string>): string {
    "| " + Join(" | ", cells) + " |"
  }

  /** `"|" + "|".join(["---"] * n) + "|"`. */
  function Separator(n: nat): string {
    "|" + Join("|", Repeat("---", n)) + "|"
  }

  datatype Rendered = Rendered(filename: string, lines: seq<string>)

  function Render(frame: Frame, filename: string): (r: Result<Rendered>)
    requires WellFormed(frame)
    ensures r.Err? <==> IsEmpty(frame)
    ensures r.Err? ==> r.error == EmptyTable
    ensures r.Ok? ==> r.value.filename == MdFilename(filename)
    ensures r.Ok? ==> |r.value.lines| == |frame.rows| + 2
    ensures r.Ok? ==> r.value.lines[0] == PipeRow(frame.columns)
    ensures r.Ok? ==> r.value.lines[1] == Separator(|frame.columns|)
    ensures r.Ok? ==> forall i :: 0 <= i < |frame.rows| ==> r.value.lines[i + 2] == PipeRow(frame.rows[i])
  {
    if IsEmpty(frame) then Err(EmptyTable)
    else
      var body := seq(|frame.rows|, i requires 0 <= i < |frame.rows| => PipeRow(frame.rows[i]));
      Ok(Rendered(MdFilename(filename), [PipeRow(frame.columns), Separator(|frame.columns|)] + body))
  }

  /** The file name used when the caller gives none. */
  const DefaultFilename := "table.md"

  /** `generate_markdown_table(dataframe)` without a file name: the table
      goes to "table.md", which already ends in ".md". */
  function RenderDefault(frame: Frame): (r: Result<Rendered>)
    requires WellFormed(frame)
    ensures r.Err? <==> IsEmpty(frame)
    ensures r.Ok? ==> r.value.filename == DefaultFilename
    ensures r.Ok? ==> r == Render(frame, DefaultFilename)
  {
    assert DefaultFilename[|DefaultFilename| - 3..] == ".md";
    Render(frame, DefaultFilename)
  }

  /** Normalising a file name twice is normalising it once. */
  lemma {:induction false} MdFilenameIdempotent(name: string)
    ensures MdFilename(MdFilename(name)) == MdFilename(name)
  {
    var f := MdFilename(name);
    assert EndsWith(f, ".md");
  }

  /** Only the full ".md" suffix counts: a name ending in a bare dot still
      gets the whole extension appended. */
  lemma {:induction false} MdFilenameTrailingDot()
    ensures MdFilename("a.") == "a..md"
  {
    assert !EndsWith("a.", ".md");
  }

  /** Reading a rendered line back: split on '|', drop the empty pieces
      before the first and after the last bar, and trim the single space
      the renderer puts on each side of a cell. */
  function ParseRow(line: string): seq<string> {
    var parts := Split('|', line);
    if |parts| < 2 then []
    else
      var inner := parts[1..|parts| - 1];
      seq(|inner|, i requires 0 <= i < |inner| => Unpad(inner[i]))
  }

  function Pad(cell: string): string {
    " " + cell + " "
  }

  function Unpad(piece: string): string {
    if |piece| >= 2 && piece[0] == ' ' && piece[|piece| - 1] == ' ' then piece[1..|piece| - 1] else piece
  }

  /** Cells with a space on each side. */
  function Padded(cells: seq<string>): (p: seq<string>)
    ensures |p| == |cells|
    ensures forall i :: 0 <= i < |cells| ==> p[i] == Pad(cells[i])
  {
    seq(|cells|, i requires 0 <= i < |cells| => Pad(cells[i]))
  }

  /** Joining with " | " is joining the padded cells with "|". */
  lemma {:induction false} JoinPadded(cells: seq<string>)
    requires |cells| >= 1
    ensures " " + Join(" | ", cells) + " " == Join("|", Padded(cells))
  {
    if |cells| > 1 {
      var tail := cells[1..];
      JoinPadded(tail);
      assert Padded(cells) == [Pad(cells[0])] + Padded(tail);
      JoinCons("|", Pad(cells[0]), Padded(tail));
    }
  }

  /** A rendered row is the padded cells joined with '|' between two empty
      pieces. */
  lemma {:induction false} PipeRowAsJoin(cells: seq<string>)
    requires |cells| >= 1
    ensures PipeRow(cells) == Join("|", [""] + Padded(cells) + [""])
  {
    var p := Padded(cells);
    JoinPadded(cells);
    JoinCons("|", "", p + [""]);
    JoinSnoc("|", p, "");
    assert [""] + p + [""] == [""] + (p + [""]);
  }

  /** A row of cells without '|' is read back exactly from its line. */
  lemma {:induction false} ParsePipeRow(cells: seq<string>)
    requires |cells| >= 1
    requires forall i :: 0 <= i < |cells| ==> '|' !in cells[i]
    ensures ParseRow(PipeRow(cells)) == cells
  {
    var pieces := [""] + Padded(cells) + [""];
    PipeRowAsJoin(cells);
    forall i | 0 <= i < |pieces|
      ensures '|' !in pieces[i]
    {
      if 0 < i < |pieces| - 1 {
        assert pieces[i] == " " + cells[i - 1] + " ";
      }
    }
    SplitJoin('|', pieces);
    assert pieces[1..|pieces| - 1] == Padded(cells);
  }

  /** The separator line has one "---" piece per column between its bars. */
  lemma {:induction false} SeparatorPieces(n: nat)
    requires n >= 1
    ensures Split('|', Separator(n)) == [""] + Repeat("---", n) + [""]
  {
    var dashes := Repeat("---", n);
    var pieces := [""] + dashes + [""];
    JoinCons("|", "", dashes + [""]);
    JoinSnoc("|", dashes, "");
    assert pieces == [""] + (dashes + [""]);
    assert Join("|", pieces) == Separator(n);
    forall i | 0 <= i < |pieces|
      ensures '|' !in pieces[i]
    {
      assert pieces[i] == "" || pieces[i] == "---";
    }
    SplitJoin('|', pieces);
  }

  /** Every line of a rendered table reads back as the header or the data
      row it came from, when no name or cell contains '|'. */
  lemma {:induction false} RenderReadsBack(frame: Frame, filename: string)
    requires WellFormed(frame) && !IsEmpty(frame)
    requires forall i :: 0 <= i < |frame.columns| ==> '|' !in frame.columns[i]
    requires forall i, j :: 0 <= i < |frame.rows| && 0 <= j < |frame.rows[i]| ==> '|' !in frame.rows[i][j]
    ensures Render(frame, filename).Ok?
    ensures ParseRow(Render(frame, filename).value.lines[0]) == frame.columns
    ensures forall i :: 0 <= i < |frame.rows| ==> ParseRow(Render(frame, filename).value.lines[i + 2]) == frame.rows[i]
  {
    ParsePipeRow(frame.columns);
    forall i | 0 <= i < |frame.rows|
      ensures ParseRow(PipeRow(frame.rows[i])) == frame.rows[i]
    {
      ParsePipeRow(frame.rows[i]);
    }
  }

  /** Columns A, B and rows (1, 2), (3, 4), written to "table". */
  lemma {:induction false} ExampleTwoByTwo()
    ensures Render(Frame(["A", "B"], [["1", "2"], ["3", "4"]]), "table")
            == Ok(Rendered("table.md", ["| A | B |", "|---|---|", "| 1 | 2 |", "| 3 | 4 |"]))
  {
    assert "table"[2..] == "ble";
    assert MdFilename("table") == "table.md";
    assert Join(" | ", ["A", "B"]) == "A | B";
    assert PipeRow(["A", "B"]) == "| A | B |";
    assert Join(" | ", ["1", "2"]) == "1 | 2";
    assert PipeRow(["1", "2"]) == "| 1 | 2 |";
    assert Join(" | ", ["3", "4"]) == "3 | 4";
    assert PipeRow(["3", "4"]) == "| 3 | 4 |";
    assert Repeat("---", 2) == ["---", "---"];
    assert Join("|", ["---", "---"]) == "---|---";
    assert Separator(2) == "|---|---|";
    var frame := Frame(["A", "B"], [["1", "2"], ["3", "4"]]);
    var lines := Render(frame, "table").value.lines;
    assert lines[2] == PipeRow(frame.rows[0]) && lines[3] == PipeRow(frame.rows[1]);
    assert lines == ["| A | B |", "|---|---|", "| 1 | 2 |", "| 3 | 4 |"];
  }
}

=== FILE: order.dfy ===
/** The ordering pandas uses when it sorts the long table by
    (Firm, Metric, Year): strings compare code point by code point, a proper
    prefix sorting first, and years compare as integers. */
module Order {

  /** Lexicographic "strictly before" on strings, as Python compares `str`. */
  predicate StrLess(a: string, b: string)
    decreases |a|
  {
    && |b| > 0
    && (|a| == 0 || a[0] < b[0] || (a[0] == b[0] && StrLess(a[1..], b[1..])))
  }

  lemma {:induction false} StrLessIrreflexive(a: string)
    ensures !StrLess(a, a)
  {
    if |a| > 0 {
      StrLessIrreflexive(a[1..]);
    }
  }

  lemma {:induction false} StrLessTransitive(a: string, b: string, c: string)
    requires StrLess(a, b) && StrLess(b, c)
    ensures StrLess(a, c)
    decreases |a|
  {
    if |a| > 0 && a[0] == b[0] && b[0] == c[0] {
      StrLessTransitive(a[1..], b[1..], c[1..]);
    }
  }

  /** Any two different strings are ordered one way or the other. */
  lemma {:induction false} StrLessTotal(a: string, b: string)
    ensures a == b || StrLess(a, b) || StrLess(b, a)
    decreases |a|
  {
    if |a| > 0 && |b| > 0 && a[0] == b[0] {
      StrLessTotal(a[1..], b[1..]);
      if a[1..] == b[1..] {
        assert a == [a[0]] + a[1..] && b == [b[0]] + b[1..];
      }
    }
  }

  lemma {:induction false} StrLessAsymmetric(a: string, b: string)
    requires StrLess(a, b)
    ensures !StrLess(b, a)
  {
    if StrLess(b, a) {
      StrLessTransitive(a, b, a);
      StrLessIrreflexive(a);
    }
  }
}

=== FILE: records.dfy ===
/** The long-format table: one row per (Firm, Metric, Year) with its Value,
    the sort order on its keys, and the sequence operations the imputer is
    built from (sort, filter, count). */
module Records {
  import opened Order

  /** One observation of the long table (`ff` in load_data.py). */
  datatype Row = Row(firm: string, metric: string, year: int, value: real)

  /** The columns the table is pivoted and merged on. */
  datatype Key = Key(firm: string, metric: string, year: int)

  /** A (Firm, Metric) group: one row of the wide pivot. */
  datatype GroupId = GroupId(firm: string, metric: string)

  function KeyOf(r: Row): Key {
    Key(r.firm, r.metric, r.year)
  }

  function GroupOf(r: Row): GroupId {
    GroupId(r.firm, r.metric)
  }

  function Values(s: seq<Row>): (vs: seq<real>)
    ensures |vs| == |s|
    ensures forall i :: 0 <= i < |s| ==> vs[i] == s[i].value
  {
    seq(|s|, i requires 0 <= i < |s| => s[i].value)
  }

  /** Order of `sort_values(["Firm", "Metric", "Year"])`. */
  predicate KeyLess(a: Key, b: Key) {
    || StrLess(a.firm, b.firm)
    || (a.firm == b.firm && StrLess(a.metric, b.metric))
    || (a.firm == b.firm && a.metric == b.metric && a.year < b.year)
  }

  predicate KeyLe(a: Key, b: Key) {
    a == b || KeyLess(a, b)
  }

  lemma {:induction false} KeyLessIrreflexive(a: Key)
    ensures !KeyLess(a, a)
  {
    StrLessIrreflexive(a.firm);
    StrLessIrreflexive(a.metric);
  }

  lemma {:induction false} KeyLessTransitive(a: Key, b: Key, c: Key)
    requires KeyLess(a, b) && KeyLess(b, c)
    ensures KeyLess(a, c)
  {
    if StrLess(a.firm, b.firm) && StrLess(b.firm, c.firm) {
      StrLessTransitive(a.firm, b.firm, c.firm);
    }
    if a.firm == b.firm == c.firm && StrLess(a.metric, b.metric) && StrLess(b.metric, c.metric) {
      StrLessTransitive(a.metric, b.metric, c.metric);
    }
  }

  lemma {:induction false} KeyLessTotal(a: Key, b: Key)
    ensures a == b || KeyLess(a, b) || KeyLess(b, a)
  {
    StrLessTotal(a.firm, b.firm);
    StrLessTotal(a.metric, b.metric);
  }

  lemma {:induction false} KeyLeTransitive(a: Key, b: Key, c: Key)
    requires KeyLe(a, b) && KeyLe(b, c)
    ensures KeyLe(a, c)
  {
    if KeyLess(a, b) && KeyLess(b, c) {
      KeyLessTransitive(a, b, c);
    }
  }

  /** No two rows share (Firm, Metric, Year): what `pivot` demands. */
  predicate UniqueKeys(s: seq<Row>) {
    forall i, j :: 0 <= i < j < |s| ==> KeyOf(s[i]) != KeyOf(s[j])
  }

  predicate SortedByKey(s: seq<Row>) {
    forall i, j :: 0 <= i < j < |s| ==> KeyLe(KeyOf(s[i]), KeyOf(s[j]))
  }

  /** Rows with the same key in a table with unique keys are the same row. */
  lemma {:induction false} SameKeySameRow(s: seq<Row>, x: Row, y: Row)
    requires UniqueKeys(s)
    requires x in s && y in s && KeyOf(x) == KeyOf(y)
    ensures x == y
  {
    var i :| 0 <= i < |s| && s[i] == x;
    var j :| 0 <= j < |s| && s[j] == y;
    assert i == j;
  }

  /** Insert one row into a sorted table, after every row with a smaller key. */
  function Insert(x: Row, s: seq<Row>): (t: seq<Row>)
    requires SortedByKey(s)
    ensures |t| == |s| + 1
    ensures multiset(t) == multiset(s) + multiset{x}
    ensures SortedByKey(t)
  {
    if |s| == 0 then [x]
    else if KeyLe(KeyOf(x), KeyOf(s[0])) then
      InsertFront(x, s);
      [x] + s
    else
      assert SortedByKey(s[1..]) by {
        assert forall i :: 0 <= i < |s[1..]| ==> s[1..][i] == s[i + 1];
      }
      var rest := Insert(x, s[1..]);
      assert s == [s[0]] + s[1..];
      KeyLessTotal(KeyOf(x), KeyOf(s[0]));
      InsertBehind(x, s, rest);
      [s[0]] + rest
  }

  lemma {:induction false} InsertFront(x: Row, s: seq<Row>)
    requires SortedByKey(s) && |s| > 0
    requires KeyLe(KeyOf(x), KeyOf(s[0]))
    ensures SortedByKey([x] + s)
  {
    forall j | 0 <= j < |s|
      ensures KeyLe(KeyOf(x), KeyOf(s[j]))
    {
      if j > 0 {
        KeyLeTransitive(KeyOf(x), KeyOf(s[0]), KeyOf(s[j]));
      }
    }
  }

  lemma {:induction false} InsertBehind(x: Row, s: seq<Row>, rest: seq<Row>)
    requires SortedByKey(s) && |s| > 0
    requires KeyLess(KeyOf(s[0]), KeyOf(x))
    requires SortedByKey(rest)
    requires multiset(rest) == multiset(s[1..]) + multiset{x}
    ensures SortedByKey([s[0]] + rest)
  {
    forall j | 0 <= j < |rest|
      ensures KeyLe(KeyOf(s[0]), KeyOf(rest[j]))
    {
      assert rest[j] in multiset(rest);
      if rest[j] != x {
        assert rest[j] in multiset(s[1..]);
        var k :| 0 <= k < |s[1..]| && s[1..][k] == rest[j];
        assert s[k + 1] == rest[j];
      }
    }
    var t := [s[0]] + rest;
    forall i, j | 0 <= i < j < |t|
      ensures KeyLe(KeyOf(t[i]), KeyOf(t[j]))
    {
      if i > 0 {
        assert t[i] == rest[i - 1] && t[j] == rest[j - 1];
      }
    }
  }

  /** Insertion sort by (Firm, Metric, Year). */
  function SortByKey(s: seq<Row>): (t: seq<Row>)
    ensures |t| == |s|
    ensures multiset(t) == multiset(s)
    ensures SortedByKey(t)
  {
    if |s| == 0 then []
    else
      assert s == [s[0]] + s[1..];
      Insert(s[0], SortByKey(s[1..]))
  }

  /** Sorting a table that is already in key order leaves it as it is. */
  lemma {:induction false} SortSorted(s: seq<Row>)
    requires SortedByKey(s)
    ensures SortByKey(s) == s
  {
    if |s| > 0 {
      var rest := s[1..];
      assert SortedByKey(rest) by {
        assert forall i :: 0 <= i < |rest| ==> rest[i] == s[i + 1];
      }
      SortSorted(rest);
      assert s == [s[0]] + rest;
      if |rest| > 0 {
        assert KeyLe(KeyOf(s[0]), KeyOf(rest[0]));
      }
    }
  }

  /** A filter that keeps every row is the identity. */
  lemma {:induction false} FilterAll(s: seq<Row>, p: Row -> bool)
    requires forall x :: x in s ==> p(x)
    ensures Filter(s, p) == s
  {
    if |s| > 0 {
      assert forall x :: x in s[1..] ==> x in s;
      FilterAll(s[1..], p);
      assert s == [s[0]] + s[1..];
    }
  }

  /** A table sorted by key whose keys are unique is strictly increasing. */
  lemma {:induction false} SortedUniqueIsStrict(s: seq<Row>, i: int, j: int)
    requires SortedByKey(s) && UniqueKeys(s)
    requires 0 <= i < j < |s|
    ensures KeyLess(KeyOf(s[i]), KeyOf(s[j]))
  {
  }

  /** Keys stay unique in any selection of a table's rows: a reordering, or
      a filter. */
  lemma {:induction false} UniqueKeysSubset(s: seq<Row>, t: seq<Row>)
    requires multiset(t) <= multiset(s)
    requires UniqueKeys(s)
    ensures UniqueKeys(t)
  {
    forall i, j | 0 <= i < j < |t|
      ensures KeyOf(t[i]) != KeyOf(t[j])
    {
      assert t[i] in multiset(s) && t[j] in multiset(s);
      if KeyOf(t[i]) == KeyOf(t[j]) {
        SameKeySameRow(s, t[i], t[j]);
        MultiplicityOne(s, t[i]);
        TwoCopies(t, i, j);
      }
    }
  }

  lemma {:induction false} TwoCopies(t: seq<Row>, i: int, j: int)
    requires 0 <= i < j < |t| && t[i] == t[j]
    ensures multiset(t)[t[i]] >= 2
  {
    assert t == t[..i] + [t[i]] + t[i + 1..j] + [t[j]] + t[j + 1..];
  }

  /** In a table with unique keys every row occurs once. */
  lemma {:induction false} MultiplicityOne(s: seq<Row>, x: Row)
    requires UniqueKeys(s)
    requires x in s
    ensures multiset(s)[x] == 1
  {
    assert s == [s[0]] + s[1..];
    assert UniqueKeys(s[1..]) by {
      assert forall i :: 0 <= i < |s[1..]| ==> s[1..][i] == s[i + 1];
    }
    if x == s[0] {
      assert forall k :: 0 <= k < |s[1..]| ==> KeyOf(s[1..][k]) != KeyOf(s[0]) by {
        assert forall k :: 0 <= k < |s[1..]| ==> s[1..][k] == s[k + 1];
      }
      assert x !in s[1..];
    } else {
      MultiplicityOne(s[1..], x);
    }
  }

  /** The rows of `s` that satisfy `p`, in their order. */
  function Filter(s: seq<Row>, p: Row -> bool): (t: seq<Row>)
    ensures |t| <= |s|
    ensures forall x :: x in t <==> x in s && p(x)
    ensures multiset(t) <= multiset(s)
    ensures SortedByKey(s) ==> SortedByKey(t)
  {
    if |s| == 0 then []
    else
      var rest := Filter(s[1..], p);
      assert s == [s[0]] + s[1..];
      assert SortedByKey(s) ==> SortedByKey(s[1..]) by {
        assert forall i :: 0 <= i < |s[1..]| ==> s[1..][i] == s[i + 1];
      }
      if p(s[0]) then
        FilterHead(s, rest);
        [s[0]] + rest
      else rest
  }

  lemma {:induction false} FilterHead(s: seq<Row>, rest: seq<Row>)
    requires |s| > 0
    requires forall x :: x in rest ==> x in s[1..]
    requires SortedByKey(s) ==> SortedByKey(rest)
    ensures SortedByKey(s) ==> SortedByKey([s[0]] + rest)
  {
    if SortedByKey(s) {
      var t := [s[0]] + rest;
      forall i, j | 0 <= i < j < |t|
        ensures KeyLe(KeyOf(t[i]), KeyOf(t[j]))
      {
        if i == 0 {
          assert t[j] in s[1..];
          var k :| 0 <= k < |s[1..]| && s[1..][k] == t[j];
          assert s[k + 1] == t[j];
        } else {
          assert t[i] == rest[i - 1] && t[j] == rest[j - 1];
        }
      }
    }
  }

  /** Number of rows of `s` that satisfy `p`. */
  function CountIf(s: seq<Row>, p: Row -> bool): (n: nat)
    ensures n <= |s|
  {
    if |s| == 0 then 0
    else (if p(s[0]) then 1 else 0) + CountIf(s[1..], p)
  }

  lemma {:induction false} CountIfAppend(a: seq<Row>, b: seq<Row>, p: Row -> bool)
    ensures CountIf(a + b, p) == CountIf(a, p) + CountIf(b, p)
  {
    if |a| == 0 {
      assert a + b == b;
    } else {
      assert (a + b)[1..] == a[1..] + b;
      CountIfAppend(a[1..], b, p);
    }
  }

  /** Taking the row at `k` out of a sequence. */
  lemma {:induction false} RemoveAt(t: seq<Row>, k: int, p: Row -> bool)
    requires 0 <= k < |t|
    ensures multiset(t[..k] + t[k + 1..]) == multiset(t) - multiset{t[k]}
    ensures CountIf(t, p) == CountIf(t[..k] + t[k + 1..], p) + (if p(t[k]) then 1 else 0)
  {
    assert t == t[..k] + [t[k]] + t[k + 1..];
    assert multiset(t) == multiset(t[..k]) + multiset{t[k]} + multiset(t[k + 1..]);
    CountIfAppend(t[..k], [t[k]], p);
    CountIfAppend(t[..k] + [t[k]], t[k + 1..], p);
    CountIfAppend(t[..k], t[k + 1..], p);
    assert CountIf([t[k]], p) == (if p(t[k]) then 1 else 0) by {
      assert [t[k]][1..] == [];
    }
  }

  /** Counting depends only on which rows are present, not on their order. */
  lemma {:induction false} CountIfPermutation(s: seq<Row>, t: seq<Row>, p: Row -> bool)
    requires multiset(s) == multiset(t)
    ensures CountIf(s, p) == CountIf(t, p)
    decreases |s|
  {
    if |s| == 0 {
      assert |t| == |multiset(t)| == 0;
    } else {
      assert s == [s[0]] + s[1..];
      assert multiset(s) == multiset{s[0]} + multiset(s[1..]);
      assert s[0] in multiset(t);
      var k :| 0 <= k < |t| && t[k] == s[0];
      RemoveAt(t, k, p);
      CountIfPermutation(s[1..], t[..k] + t[k + 1..], p);
    }
  }

  /** Two tests that agree on every row of `s` count the same. */
  lemma {:induction false} CountIfCongruent(s: seq<Row>, p: Row -> bool, q: Row -> bool)
    requires forall x :: x in s ==> p(x) == q(x)
    ensures CountIf(s, p) == CountIf(s, q)
  {
    if |s| > 0 {
      assert forall x :: x in s[1..] ==> x in s;
      CountIfCongruent(s[1..], p, q);
    }
  }

  /** Counting the rows a filter keeps. */
  lemma {:induction false} CountIfFilter(s: seq<Row>, keep: Row -> bool, p: Row -> bool)
    ensures CountIf(Filter(s, keep), p) == CountIf(s, x => keep(x) && p(x))
  {
    if |s| > 0 {
      CountIfFilter(s[1..], keep, p);
    }
  }
}

=== FILE: reshape.dfy ===
/** The reshaping in `load_dataset` (load_data.py): a sheet read without
    headers, its first column taken as the firm index. Rows 0 and 1 give each
    data column its (Metric, Year) pair; rows with a blank index are dropped;
    the rest are melted column by column into long rows
    (Firm, Metric, Year, Value) of raw cells. */
module Reshape {
  import opened Results

  /** A spreadsheet cell as pandas reads it: empty (NaN), text, or a number. */
  datatype Cell = Blank | Text(text: string) | Number(number: real)

  /** One row of the melted sheet, its fields still raw cells. */
  datatype LongRow = LongRow(firm: Cell, metric: Cell, year: Cell, value: Cell)

  /** Every row of the sheet has the same number of cells. */
  predicate Rectangular(g: seq<seq<Cell>>) {
    forall row :: row in g ==> |row| == Width(g)
  }

  function Width(g: seq<seq<Cell>>): nat {
    if |g| == 0 then 0 else |g[0]|
  }

  /** The columns after the index column. */
  function DataColumns(g: seq<seq<Cell>>): nat {
    if Width(g) == 0 then 0 else Width(g) - 1
  }

  /** Header row `i` without its index cell: row 0 names each data column's
      Metric, row 1 its Year. */
  function Header(g: seq<seq<Cell>>, i: nat): (h: seq<Cell>)
    requires Rectangular(g) && i < |g| && Width(g) >= 1
    ensures |h| == DataColumns(g)
  {
    assert g[i] in g;
    g[i][1..]
  }

  /** `df[~df.index.isna()]`: the rows whose index cell is not blank, in
      order. The two header rows are dropped only if their index cell is
      blank; otherwise they stay as rows of data. */
  function FirmRows(g: seq<seq<Cell>>): (f: seq<seq<Cell>>)
    requires forall r :: 0 <= r < |g| ==> |g[r]| >= 1
    ensures |f| <= |g|
    ensures forall row :: row in f ==> row in g && row[0] != Blank
  {
    if |g| == 0 then []
    else
      var rest := FirmRows(g[1..]);
      if g[0][0] != Blank then [g[0]] + rest else rest
  }

  /** No row with an index is lost. */
  lemma {:induction false} FirmRowsComplete(g: seq<seq<Cell>>, row: seq<Cell>)
    requires forall r :: 0 <= r < |g| ==> |g[r]| >= 1
    requires row in g && row[0] != Blank
    ensures row in FirmRows(g)
  {
    if g[0] != row {
      var i :| 0 <= i < |g| && g[i] == row;
      assert g[1..][i - 1] == row;
      FirmRowsComplete(g[1..], row);
    }
  }

  /** Filtering keeps order: the kept rows of two stacked parts are the
      kept rows of the first part followed by those of the second. */
  lemma {:induction false} FirmRowsAppend(a: seq<seq<Cell>>, b: seq<seq<Cell>>)
    requires forall r :: 0 <= r < |a| ==> |a[r]| >= 1
    requires forall r :: 0 <= r < |b| ==> |b[r]| >= 1
    ensures FirmRows(a + b) == FirmRows(a) + FirmRows(b)
    decreases |a|
  {
    if |a| == 0 {
      assert a + b == b;
    } else {
      assert (a + b)[1..] == a[1..] + b;
      FirmRowsAppend(a[1..], b);
    }
  }

  /** A single row is kept exactly when its index cell is not blank. */
  lemma {:induction false} FirmRowsSingle(row: seq<Cell>)
    requires |row| >= 1
    ensures row[0] != Blank ==> FirmRows([row]) == [row]
    ensures row[0] == Blank ==> FirmRows([row]) == []
  {
    assert [row][1..] == [];
  }

  /** A sheet with no blank index keeps all its rows. */
  lemma {:induction false} FirmRowsAllKept(g: seq<seq<Cell>>)
    requires forall r :: 0 <= r < |g| ==> |g[r]| >= 1 && g[r][0] != Blank
    ensures FirmRows(g) == g
  {
    if |g| > 0 {
      FirmRowsAllKept(g[1..]);
      assert g == [g[0]] + g[1..];
    }
  }

  /** Position in the melted table of firm row `r` under data column `c`,
      when each column contributes `rowsPerColumn` rows: the melt stacks the
      columns one after another. */
  function Slot(c: nat, r: nat, rowsPerColumn: nat): nat {
    c * rowsPerColumn + r
  }

  /** Position `i` is the slot of some firm row under one of the first
      `columns` columns. */
  predicate IsSlot(i: nat, columns: nat, rowsPerColumn: nat) {
    exists c: nat, r: nat :: c < columns && r < rowsPerColumn && i == Slot(c, r, rowsPerColumn)
  }

  /** A slot of one of the first `columns` columns lies in their block. */
  lemma {:induction false} SlotBelow(c: nat, r: nat, rowsPerColumn: nat, columns: nat)
    requires c < columns && r < rowsPerColumn
    ensures Slot(c, r, rowsPerColumn) < columns * rowsPerColumn
  {
    assert columns * rowsPerColumn == (columns - 1) * rowsPerColumn + rowsPerColumn;
    if c < columns - 1 {
      SlotBelow(c, r, rowsPerColumn, columns - 1);
    }
  }

  /** The firm rows have a cell for each of (at least) `columns` data
      columns after the index cell. */
  predicate HasColumns(f: seq<seq<Cell>>, columns: nat) {
    forall r :: 0 <= r < |f| ==> |f[r]| > columns
  }

  /** The block the melt produces for data column `c`. */
  function Column(f: seq<seq<Cell>>, metric: Cell, year: Cell, c: nat): (col: seq<LongRow>)
    requires forall r :: 0 <= r < |f| ==> c + 1 < |f[r]|
    ensures |col| == |f|
  {
    seq(|f|, r requires 0 <= r < |f| => LongRow(f[r][0], metric, year, f[r][c + 1]))
  }

  /** `df.melt(...)` over the columns labelled (metrics[c], years[c]): each
      firm row once per column, the columns one after another. */
  function Melt(f: seq<seq<Cell>>, metrics: seq<Cell>, years: seq<Cell>): (out: seq<LongRow>)
    requires |metrics| == |years|
    requires HasColumns(f, |metrics|)
    ensures |out| == |metrics| * |f|
    ensures forall c: nat, r: nat :: c < |metrics| && r < |f| ==>
              Slot(c, r, |f|) < |out| &&
              out[Slot(c, r, |f|)] == LongRow(f[r][0], metrics[c], years[c], f[r][c + 1])
    ensures forall i :: 0 <= i < |out| ==> IsSlot(i, |metrics|, |f|)
    decreases |metrics|
  {
    var n := |metrics|;
    if n == 0 then []
    else
      var front := Melt(f, metrics[..n - 1], years[..n - 1]);
      var last := Column(f, metrics[n - 1], years[n - 1], n - 1);
      MeltStep(f, metrics, years, metrics[..n - 1], front, last);
      front + last
  }

  /** Appending the block of the last column to the melt of the others. */
  lemma MeltStep(f: seq<seq<Cell>>, metrics: seq<Cell>, years: seq<Cell>,
                 init: seq<Cell>, front: seq<LongRow>, last: seq<LongRow>)
    requires |metrics| == |years| && |metrics| > 0
    requires HasColumns(f, |metrics|)
    requires init == metrics[..|metrics| - 1]
    requires |front| == |init| * |f|
    requires forall c: nat, r: nat :: c < |init| && r < |f| ==>
               Slot(c, r, |f|) < |front| &&
               front[Slot(c, r, |f|)] == LongRow(f[r][0], init[c], years[..|metrics| - 1][c], f[r][c + 1])
    requires forall i :: 0 <= i < |front| ==> IsSlot(i, |init|, |f|)
    requires last == Column(f, metrics[|metrics| - 1], years[|metrics| - 1], |metrics| - 1)
    ensures |front + last| == |metrics| * |f|
    ensures forall c: nat, r: nat :: c < |metrics| && r < |f| ==>
              Slot(c, r, |f|) < |front + last| &&
              (front + last)[Slot(c, r, |f|)] == LongRow(f[r][0], metrics[c], years[c], f[r][c + 1])
    ensures forall i :: 0 <= i < |front + last| ==> IsSlot(i, |metrics|, |f|)
  {
    var n := |metrics|;
    assert |front + last| == n * |f| by {
      assert n * |f| == (n - 1) * |f| + |f|;
    }
    forall c: nat, r: nat | c < n && r < |f|
      ensures Slot(c, r, |f|) < |front + last|
      ensures (front + last)[Slot(c, r, |f|)] == LongRow(f[r][0], metrics[c], years[c], f[r][c + 1])
    {
      if c == n - 1 {
        assert Slot(c, r, |f|) == |front| + r;
      } else {
        SlotBelow(c, r, |f|, n - 1);
      }
    }
    forall i | 0 <= i < |front + last|
      ensures IsSlot(i, n, |f|)
    {
      if i < |front| {
        assert IsSlot(i, n - 1, |f|);
        var c: nat, r: nat :| c < n - 1 && r < |f| && i == Slot(c, r, |f|);
        assert c < n;
      } else {
        assert i == Slot(n - 1, i - |front|, |f|);
      }
    }
  }

  /** `pivot` back to wide form: the value cell of each (firm row, data
      column) slot of a melted table. */
  function Pivot(out: seq<LongRow>, rowsPerColumn: nat, columns: nat): (g: seq<seq<Cell>>)
    requires |out| == columns * rowsPerColumn
    ensures |g| == rowsPerColumn
    ensures forall r :: 0 <= r < rowsPerColumn ==> |g[r]| == columns
  {
    seq(rowsPerColumn, r requires 0 <= r < rowsPerColumn =>
      seq(columns, c requires 0 <= c < columns =>
        SlotBelow(c, r, rowsPerColumn, columns);
        out[Slot(c, r, rowsPerColumn)].value))
  }

  /** `load_dataset` without the file read: fails when there is no second
      header row, or no data column to name; otherwise melts the firm rows
      under the (Metric, Year) pairs read from rows 0 and 1. */
  function LoadDataset(g: seq<seq<Cell>>): (r: Result<seq<LongRow>>)
    requires Rectangular(g)
    ensures |g| < 2 ==> r == Err(TooFewHeaderRows)
    ensures |g| >= 2 && Width(g) < 2 ==> r == Err(NoDataColumns)
    ensures r.Ok? <==> |g| >= 2 && Width(g) >= 2
    ensures r.Ok? ==> |r.value| == (DataColumns(g)) * |FirmRows(g)|
    ensures r.Ok? ==> forall i :: 0 <= i < |r.value| ==> IsSlot(i, DataColumns(g), |FirmRows(g)|)
    ensures r.Ok? ==> forall c: nat, k: nat :: c < DataColumns(g) && k < |FirmRows(g)| ==>
              Slot(c, k, |FirmRows(g)|) < |r.value| &&
              r.value[Slot(c, k, |FirmRows(g)|)]
                == LongRow(FirmRows(g)[k][0], Header(g, 0)[c], Header(g, 1)[c], FirmRows(g)[k][c + 1])
  {
    if |g| < 2 then Err(TooFewHeaderRows)
    else if Width(g) < 2 then Err(NoDataColumns)
    else
      var f := FirmRows(g);
      var metrics, years := Header(g, 0), Header(g, 1);
      assert HasColumns(f, |metrics|) by {
        forall r | 0 <= r < |f|
          ensures |f[r]| == |metrics| + 1
        {
          assert f[r] in g;
        }
      }
      Ok(Melt(f, metrics, years))
  }

  /** Re-pivoting the melted table gives back the data cells of every firm
      row: the reshape loses no value and moves none. */
  lemma {:induction false} PivotUndoesMelt(g: seq<seq<Cell>>)
    requires Rectangular(g) && |g| >= 2 && Width(g) >= 2
    ensures Pivot(LoadDataset(g).value, |FirmRows(g)|, DataColumns(g))
            == seq(|FirmRows(g)|, k requires 0 <= k < |FirmRows(g)| => FirmRows(g)[k][1..])
  {
    var f := FirmRows(g);
    var out := LoadDataset(g).value;
    var w := DataColumns(g);
    var back := Pivot(out, |f|, w);
    forall k | 0 <= k < |f|
      ensures back[k] == f[k][1..]
    {
      assert f[k] in g;
      forall c | 0 <= c < w
        ensures back[k][c] == f[k][1..][c]
      {
      }
    }
  }

  /** Every firm row of the melted table comes from a non-blank index cell. */
  lemma {:induction false} NoBlankFirm(g: seq<seq<Cell>>)
    requires Rectangular(g) && |g| >= 2 && Width(g) >= 2
    ensures forall i :: 0 <= i < |LoadDataset(g).value| ==> LoadDataset(g).value[i].firm != Blank
  {
    var f := FirmRows(g);
    var out := LoadDataset(g).value;
    var w := DataColumns(g);
    forall i | 0 <= i < |out|
      ensures out[i].firm != Blank
    {
      assert IsSlot(i, w, |f|);
      var c: nat, k: nat :| c < w && k < |f| && i == Slot(c, k, |f|);
      assert f[k] in f;
    }
  }

  /** The sheet of the melt example below. The example lemmas receive it
      as a parameter pinned down by a `requires`, so that each proof unfolds
      the literal only where it needs its cells. */
  function ExampleSheet(): seq<seq<Cell>> {
    [[Blank, Text("Revenue"), Text("Revenue")],
     [Blank, Text("YE2016"), Text("YE2017")],
     [Text("A"), Number(1.0), Number(2.0)],
     [Blank, Number(9.0), Number(9.0)],
     [Text("B"), Number(3.0), Number(4.0)]]
  }

  lemma {:induction false} ExampleRectangular(g: seq<seq<Cell>>)
    requires g == ExampleSheet()
    ensures Rectangular(g) && |g| == 5 && Width(g) == 3
  {
    forall row | row in g
      ensures |row| == 3
    {
      var i :| 0 <= i < |g| && g[i] == row;
    }
  }

  /** Only rows 2 and 4 of a five-row sheet carry an index. */
  lemma {:induction false} FirmRowsTwoOfFive(g: seq<seq<Cell>>)
    requires |g| == 5 && forall r :: 0 <= r < |g| ==> |g[r]| >= 1
    requires g[0][0] == Blank && g[1][0] == Blank && g[3][0] == Blank
    requires g[2][0] != Blank && g[4][0] != Blank
    ensures FirmRows(g) == [g[2], g[4]]
  {
    var a, b := g[2], g[4];
    assert g[4..][1..] == [];
    assert FirmRows(g[4..]) == [b];
    assert g[3..][1..] == g[4..] && g[3..][0] == g[3];
    assert FirmRows(g[3..]) == [b];
    assert g[2..][1..] == g[3..] && g[2..][0] == a;
    assert FirmRows(g[2..]) == [a, b];
    assert g[1..][1..] == g[2..] && g[1..][0] == g[1];
    assert FirmRows(g[1..]) == [a, b];
  }

  lemma {:induction false} ExampleFirmRows(g: seq<seq<Cell>>)
    requires g == ExampleSheet()
    ensures FirmRows(g) == [g[2], g[4]]
  {
    assert |g| == 5 && |g[0]| == |g[1]| == |g[2]| == |g[3]| == |g[4]| == 3;
    FirmRowsTwoOfFive(g);
  }

  /** Melting two firm rows under two columns, written out. */
  lemma {:induction false} MeltTwoByTwo(f: seq<seq<Cell>>, metrics: seq<Cell>, years: seq<Cell>)
    requires |f| == 2 && |metrics| == 2 && |years| == 2 && HasColumns(f, 2)
    ensures Melt(f, metrics, years) == [LongRow(f[0][0], metrics[0], years[0], f[0][1]),
                                        LongRow(f[1][0], metrics[0], years[0], f[1][1]),
                                        LongRow(f[0][0], metrics[1], years[1], f[0][2]),
                                        LongRow(f[1][0], metrics[1], years[1], f[1][2])]
  {
    assert metrics[..1][..0] == [] && years[..1][..0] == [];
    assert Melt(f, metrics[..1], years[..1]) == Column(f, metrics[0], years[0], 0);
  }

  /** Two Revenue columns for 2016 and 2017, firms A and B, and a row with
      a blank index between them: the melt lists column 2016 for both firms,
      then column 2017, and the blank-index row is gone. */
  lemma {:induction false} ExampleMelt(g: seq<seq<Cell>>)
    requires g == ExampleSheet()
    ensures LoadDataset(g) == Ok([LongRow(Text("A"), Text("Revenue"), Text("YE2016"), Number(1.0)),
                                  LongRow(Text("B"), Text("Revenue"), Text("YE2016"), Number(3.0)),
                                  LongRow(Text("A"), Text("Revenue"), Text("YE2017"), Number(2.0)),
                                  LongRow(Text("B"), Text("Revenue"), Text("YE2017"), Number(4.0))])
  {
    ExampleRectangular(g);
    ExampleFirmRows(g);
    var f := FirmRows(g);
    assert Header(g, 0) == [Text("Revenue"), Text("Revenue")] && Header(g, 1) == [Text("YE2016"), Text("YE2017")];
    MeltTwoByTwo(f, Header(g, 0), Header(g, 1));
  }
}

=== FILE: results.dfy ===
/** Failure-aware return values shared by every stage of the pipeline.
    The source raises exceptions; the model returns them as values. */
module Results {

  /** A value that may be absent: the model's stand-in for a pandas NaN cell. */
  datatype Option<T> = None | Some(value: T)

  /** The ways a stage of the pipeline can fail. */
  datatype Error =
    | TooFewHeaderRows   // the sheet has no second header row to read
    | NoDataColumns      // the sheet has no column besides the firm column
    | UnsupportedLabel   // a Firm or Metric cell that is not text
    | YearFormat         // a Year cell that is not an integer once "YE" is removed
    | MissingValue       // a blank Value cell (NaN in the source)
    | NonNumericValue    // a textual Value cell
    | DuplicateKey       // two rows share (Firm, Metric, Year), so the pivot fails
    | NothingToImpute    // no row holds a zero, so the pivot keeps no group and the mask cannot be inverted
    | MissingYear        // a year of the imputation window is in no row, so the window slice or the melt fails
    | EmptyTable         // the renderer was given a table with no rows or no columns

  datatype Result<T> = Ok(value: T) | Err(error: Error) {

    predicate IsFailure() {
      Err?
    }

    function PropagateFailure<U>(): Result<U>
      requires Err?
    {
      Err(error)
    }

    function Extract(): T
      requires Ok?
    {
      value
    }
  }
}

=== FILE: text.dfy ===
/** The string operations the renderer is built from, with Python's meaning:
    `sep.join(parts)`, `s.endswith(suffix)`, and `s.split(c)` for a single
    character, together with the fact that splitting undoes joining. */
module Text {

  /** `sep.join(parts)`. */
  function Join(sep: string, parts: seq<string>): (s: string)
    ensures |parts| == 0 ==> s == ""
    ensures |parts| == 1 ==> s == parts[0]
  {
    if |parts| == 0 then ""
    else if |parts| == 1 then parts[0]
    else parts[0] + sep + Join(sep, parts[1..])
  }

  /** `s.endswith(suffix)`. */
  predicate EndsWith(s: string, suffix: string) {
    |suffix| <= |s| && s[|s| - |suffix|..] == suffix
  }

  /** `s.split(c)`: the maximal pieces between occurrences of `c`; an empty
      string splits into one empty piece. */
  function Split(c: char, s: string): (parts: seq<string>)
    ensures |parts| >= 1
    ensures forall i :: 0 <= i < |parts| ==> c !in parts[i]
  {
    if |s| == 0 then [""]
    else
      var rest := Split(c, s[1..]);
      if s[0] == c then [""] + rest
      else
        assert forall i :: 1 <= i < |rest| ==> rest[i] == rest[1..][i - 1];
        [[s[0]] + rest[0]] + rest[1..]
  }

  /** `n` copies of `s`: the list `[s] * n`. */
  function Repeat(s: string, n: nat): (r: seq<string>)
    ensures |r| == n
    ensures forall i :: 0 <= i < n ==> r[i] == s
  {
    if n == 0 then [] else [s] + Repeat(s, n - 1)
  }

  /** A piece without `c` followed by `c` splits off as one piece. */
  lemma {:induction false} SplitPiece(c: char, p: string, rest: string)
    requires c !in p
    ensures Split(c, p + [c] + rest) == [p] + Split(c, rest)
  {
    if |p| == 0 {
      assert p + [c] + rest == [c] + rest;
      assert ([c] + rest)[1..] == rest;
    } else {
      assert (p + [c] + rest)[1..] == p[1..] + [c] + rest;
      SplitPiece(c, p[1..], rest);
      assert [p[0]] + p[1..] == p;
    }
  }

  /** Splitting a string with no `c` gives the string back. */
  lemma {:induction false} SplitWhole(c: char, p: string)
    requires c !in p
    ensures Split(c, p) == [p]
  {
    if |p| > 0 {
      SplitWhole(c, p[1..]);
      assert [p[0]] + p[1..] == p;
    }
  }

  /** Splitting on `c` undoes joining with `c`, when no part contains `c`. */
  lemma {:induction false} SplitJoin(c: char, parts: seq<string>)
    requires |parts| >= 1
    requires forall i :: 0 <= i < |parts| ==> c !in parts[i]
    ensures Split(c, Join([c], parts)) == parts
  {
    if |parts| == 1 {
      SplitWhole(c, parts[0]);
    } else {
      var tail := parts[1..];
      assert forall i :: 0 <= i < |tail| ==> tail[i] == parts[i + 1];
      SplitJoin(c, tail);
      SplitPiece(c, parts[0], Join([c], tail));
      assert parts == [parts[0]] + tail;
    }
  }

  /** Joining a non-empty list after adding a part at the front. */
  lemma {:induction false} JoinCons(sep: string, p: string, parts: seq<string>)
    requires |parts| >= 1
    ensures Join(sep, [p] + parts) == p + sep + Join(sep, parts)
  {
    assert ([p] + parts)[1..] == parts;
  }

  /** Joining a list that ends with one more part. */
  lemma {:induction false} JoinSnoc(sep: string, parts: seq<string>, p: string)
    requires |parts| >= 1
    ensures Join(sep, parts + [p]) == Join(sep, parts) + sep + p
  {
    if |parts| > 1 {
      assert (parts + [p])[1..] == parts[1..] + [p];
      JoinSnoc(sep, parts[1..], p);
    }
  }
}

=== FILE: zero_runs.dfy ===
/** The zero-run classifier (`zero_test`, load_data.py).

    It is given one (Firm, Metric) group's values in year order and decides
    whether the group's zeros are "structural": either the group is all zero,
    or every zero lies in the leading or the trailing run of zeros. The
    classifier counts the zeros, the leading run and the trailing run, and
    compares; the lemmas below show that this count-based test is the same as
    "no zero has a non-zero somewhere before it and somewhere after it". */
module ZeroRuns {

  /** Number of zeros in `s`. */
  function ZeroCount(s: seq<real>): (n: nat)
    ensures n <= |s|
    ensures n == 0 <==> forall i :: 0 <= i < |s| ==> s[i] != 0.0
    ensures n == |s| <==> forall i :: 0 <= i < |s| ==> s[i] == 0.0
  {
    if |s| == 0 then 0
    else
      assert forall i :: 1 <= i < |s| ==> s[i] == s[1..][i - 1];
      (if s[0] == 0.0 then 1 else 0) + ZeroCount(s[1..])
  }

  /** The count is the number of zeros, `(row == 0).sum()`: the
      multiplicity of 0 among the values. */
  lemma {:induction false} ZeroCountIsMultiplicity(s: seq<real>)
    ensures ZeroCount(s) == multiset(s)[0.0]
  {
    if |s| > 0 {
      ZeroCountIsMultiplicity(s[1..]);
      assert s == [s[0]] + s[1..];
    }
  }

  /** Length of the maximal run of zeros at the start of `s`: the loop that
      walks forward and stops at the first non-zero value. */
  function LeadingZeros(s: seq<real>): (n: nat)
    ensures n <= |s|
    ensures forall i :: 0 <= i < n ==> s[i] == 0.0
    ensures n < |s| ==> s[n] != 0.0
  {
    if |s| == 0 || s[0] != 0.0 then 0
    else
      assert forall i :: 1 <= i < |s| ==> s[i] == s[1..][i - 1];
      1 + LeadingZeros(s[1..])
  }

  /** Length of the maximal run of zeros at the end of `s`: the loop that
      walks backward and stops at the last non-zero value. */
  function TrailingZeros(s: seq<real>): (n: nat)
    ensures n <= |s|
    ensures forall i :: |s| - n <= i < |s| ==> s[i] == 0.0
    ensures n < |s| ==> s[|s| - 1 - n] != 0.0
  {
    if |s| == 0 || s[|s| - 1] != 0.0 then 0
    else 1 + TrailingZeros(s[..|s| - 1])
  }

  /** A zero at position `j` with a non-zero somewhere before and after it. */
  ghost predicate InteriorZero(s: seq<real>, j: int) {
    && 0 <= j < |s|
    && s[j] == 0.0
    && (exists i :: 0 <= i < j && s[i] != 0.0)
    && (exists k :: j < k < |s| && s[k] != 0.0)
  }

  ghost predicate HasInteriorZero(s: seq<real>) {
    exists j :: InteriorZero(s, j)
  }

  /** The classifier: true ("structural") when the group is all zero or when
      the leading and trailing runs together account for every zero. */
  function ZeroTest(s: seq<real>): (structural: bool)
    ensures structural <==> !HasInteriorZero(s)
  {
    ZeroTestCharacterization(s);
    var zeros := ZeroCount(s);
    var nonZeros := |s| - zeros;
    nonZeros == 0 || LeadingZeros(s) + TrailingZeros(s) == zeros
  }

  /** Zeros split over a concatenation. */
  lemma {:induction false} ZeroCountAppend(a: seq<real>, b: seq<real>)
    ensures ZeroCount(a + b) == ZeroCount(a) + ZeroCount(b)
  {
    if |a| == 0 {
      assert a + b == b;
    } else {
      assert (a + b)[1..] == a[1..] + b;
      ZeroCountAppend(a[1..], b);
    }
  }

  /** A non-zero exists exactly when the leading run stops short of the end,
      and then the trailing run does too, and stops no earlier. */
  lemma {:induction false} RunsOfMixedSequence(s: seq<real>)
    requires ZeroCount(s) < |s|
    ensures LeadingZeros(s) < |s| && TrailingZeros(s) < |s|
    ensures LeadingZeros(s) <= |s| - 1 - TrailingZeros(s)
  {
    var j :| 0 <= j < |s| && s[j] != 0.0;
    assert LeadingZeros(s) <= j;
    assert j < |s| - TrailingZeros(s);
  }

  /** With a non-zero present, the zeros are the leading run, the trailing
      run, and the zeros of the stretch from the first to the last non-zero. */
  lemma {:induction false} ZeroCountOfMixedSequence(s: seq<real>)
    requires ZeroCount(s) < |s|
    ensures LeadingZeros(s) <= |s| - TrailingZeros(s)
    ensures ZeroCount(s) == LeadingZeros(s) + ZeroCount(s[LeadingZeros(s)..|s| - TrailingZeros(s)]) + TrailingZeros(s)
  {
    RunsOfMixedSequence(s);
    var f, e := LeadingZeros(s), |s| - TrailingZeros(s);
    var prefix, middle, suffix := s[..f], s[f..e], s[e..];
    assert prefix + middle == s[..e];
    assert s[..e] + suffix == s;
    ZeroCountAppend(prefix, middle);
    ZeroCountAppend(s[..e], suffix);
    assert forall i :: 0 <= i < |prefix| ==> prefix[i] == 0.0;
    assert forall i :: 0 <= i < |suffix| ==> suffix[i] == 0.0;
  }

  /** A zero strictly between two non-zeros is interior. */
  lemma {:induction false} MiddleZeroIsInterior(s: seq<real>, f: nat, e: nat)
    requires f < e <= |s|
    requires s[f] != 0.0 && s[e - 1] != 0.0
    requires ZeroCount(s[f..e]) != 0
    ensures HasInteriorZero(s)
  {
    var middle := s[f..e];
    var m :| 0 <= m < |middle| && middle[m] == 0.0;
    assert s[f + m] == middle[m];
    assert InteriorZero(s, f + m);
  }

  /** An interior zero lies between the first and the last non-zero. */
  lemma {:induction false} InteriorZeroIsInMiddle(s: seq<real>, j: int)
    requires InteriorZero(s, j)
    ensures LeadingZeros(s) <= j < |s| - TrailingZeros(s)
    ensures s[LeadingZeros(s)..|s| - TrailingZeros(s)][j - LeadingZeros(s)] == 0.0
  {
    var i :| 0 <= i < j && s[i] != 0.0;
    var k :| j < k < |s| && s[k] != 0.0;
    assert LeadingZeros(s) <= i;
    assert k < |s| - TrailingZeros(s);
  }

  /** With a non-zero present, a zero is interior exactly when it lies in the
      stretch from the first to the last non-zero. */
  lemma {:induction false} InteriorZeroInMiddle(s: seq<real>)
    requires ZeroCount(s) < |s|
    ensures LeadingZeros(s) <= |s| - TrailingZeros(s)
    ensures HasInteriorZero(s) <==> ZeroCount(s[LeadingZeros(s)..|s| - TrailingZeros(s)]) != 0
  {
    RunsOfMixedSequence(s);
    if ZeroCount(s[LeadingZeros(s)..|s| - TrailingZeros(s)]) != 0 {
      MiddleZeroIsInterior(s, LeadingZeros(s), |s| - TrailingZeros(s));
    } else if HasInteriorZero(s) {
      var j :| InteriorZero(s, j);
      InteriorZeroIsInMiddle(s, j);
    }
  }

  /** The count-based test and the positional description agree on every
      sequence. */
  lemma {:induction false} ZeroTestCharacterization(s: seq<real>)
    ensures (|s| - ZeroCount(s) == 0 || LeadingZeros(s) + TrailingZeros(s) == ZeroCount(s))
            <==> !HasInteriorZero(s)
  {
    if ZeroCount(s) < |s| {
      ZeroCountOfMixedSequence(s);
      InteriorZeroInMiddle(s);
    }
  }

  /** A walk that stops at the first non-zero has found the leading run. */
  lemma {:induction false} LeadingRunIsUnique(s: seq<real>, n: nat)
    requires n <= |s|
    requires forall k :: 0 <= k < n ==> s[k] == 0.0
    requires n < |s| ==> s[n] != 0.0
    ensures LeadingZeros(s) == n
  {
  }

  /** A walk back that stops at the last non-zero has found the trailing run. */
  lemma {:induction false} TrailingRunIsUnique(s: seq<real>, n: nat)
    requires n <= |s|
    requires forall k :: |s| - n <= k < |s| ==> s[k] == 0.0
    requires n < |s| ==> s[|s| - 1 - n] != 0.0
    ensures TrailingZeros(s) == n
  {
  }

  /** A sequence the classifier rejects holds a non-zero value. */
  lemma {:induction false} NonZeroOfNonStructural(s: seq<real>) returns (a: int)
    requires !ZeroTest(s)
    ensures 0 <= a < |s| && s[a] != 0.0
  {
    var z :| InteriorZero(s, z);
    a :| 0 <= a < z && s[a] != 0.0;
  }

  /** The classifier as the source computes it: a count of the zeros, then
      its two loops, a forward walk that stops at the first non-zero and a
      backward walk that stops at the last non-zero. */
  method ZeroTestScan(s: seq<real>) returns (structural: bool)
    ensures structural <==> !HasInteriorZero(s)
    ensures structural == ZeroTest(s)
  {
    var zeros := 0;
    var i := 0;
    while i < |s|
      invariant 0 <= i <= |s|
      invariant zeros == ZeroCount(s[..i])
    {
      assert s[..i + 1] == s[..i] + [s[i]];
      ZeroCountAppend(s[..i], [s[i]]);
      if s[i] == 0.0 {
        zeros := zeros + 1;
      }
      i := i + 1;
    }
    assert s[..|s|] == s;

    var first := 0;
    while first < |s| && s[first] == 0.0
      invariant 0 <= first <= |s|
      invariant forall k :: 0 <= k < first ==> s[k] == 0.0
    {
      first := first + 1;
    }

    var last := 0;
    while last < |s| && s[|s| - 1 - last] == 0.0
      invariant 0 <= last <= |s|
      invariant forall k :: |s| - last <= k < |s| ==> s[k] == 0.0
    {
      last := last + 1;
    }

    LeadingRunIsUnique(s, first);
    TrailingRunIsUnique(s, last);
    structural := (|s| - zeros == 0) || (first + last == zeros);
    assert structural == ZeroTest(s);
  }

  /** A group with no zero at all, and a group that is entirely zero, are
      both structural. */
  lemma {:induction false} NoZeroOrAllZeroIsStructural(s: seq<real>)
    requires (forall i :: 0 <= i < |s| ==> s[i] != 0.0) || (forall i :: 0 <= i < |s| ==> s[i] == 0.0)
    ensures ZeroTest(s)
  {
    assert !HasInteriorZero(s);
  }

  /** [0, 0, 5, 6, 0]: lead 2 + trail 1 equals the 3 zeros, so structural. */
  lemma {:induction false} ExampleBoundaryRuns()
    ensures ZeroTest([0.0, 0.0, 5.0, 6.0, 0.0])
  {
    var s := [0.0, 0.0, 5.0, 6.0, 0.0];
    if HasInteriorZero(s) {
      var j :| InteriorZero(s, j);
      var i :| 0 <= i < j && s[i] != 0.0;
      var k :| j < k < |s| && s[k] != 0.0;
    }
  }

  /** [5, 0, 6, 0, 7]: both zeros are interior, so not structural. */
  lemma {:induction false} ExampleInteriorZeros()
    ensures !ZeroTest([5.0, 0.0, 6.0, 0.0, 7.0])
  {
    var s := [5.0, 0.0, 6.0, 0.0, 7.0];
    assert s[0] != 0.0 && s[2] != 0.0;
    assert InteriorZero(s, 1);
  }

  /** [0, 5, 0, 0, 6]: the last value is non-zero, so the trailing run is
      empty, lead 1 + trail 0 differs from the 3 zeros, and the group is not
      structural. */
  lemma {:induction false} ExampleLeadingRunPlusInterior()
    ensures !ZeroTest([0.0, 5.0, 0.0, 0.0, 6.0])
    ensures LeadingZeros([0.0, 5.0, 0.0, 0.0, 6.0]) == 1
    ensures TrailingZeros([0.0, 5.0, 0.0, 0.0, 6.0]) == 0
  {
    var s := [0.0, 5.0, 0.0, 0.0, 6.0];
    assert s[1] != 0.0 && s[4] != 0.0;
    assert InteriorZero(s, 2);
  }
}
